=== FILE: README.md ===
# Content-moderation dashboard: a Dafny model of its pages and their state

This is the browser front end of a distributed content-moderation system. Users sign in.
They watch aggregate counters and server health on the dashboard. They browse, filter and
submit content on the content page, and they read derived figures on the analytics page.
The content page, the dashboard and the analytics page fetch JSON from the backend. The
content page and the dashboard report failed fetches through a shared list of toast
notifications. The analytics page only logs them, and the submission form shows its errors
inline. The content page and the dashboard fetch on mount and every ten seconds. They also fetch whenever the notification list changes, because their effects
depend on the provider's `addNotification`, which is a new closure after every change
(see "## Findings").

The model follows the code one source file at a time:

- **State that the code changes in place** becomes a `class`: the notification provider, the
  session (`AuthProvider`), the content page, the dashboard, the analytics page, the
  submission form and the sign-in page. Its fields mirror the component's `useState` and
  `useReducer` cells. Each handler is a method that names what it `modifies`.
- **Async handlers** are split at their `await`. `BeginX` is the part that runs before the
  request goes out. `CompleteX` applies the reply. A third method runs both in order.
- **Pure calculations** are functions with contracts, plus lemmas that relate them. These
  cover the reducer, sorting, pagination, rounded percentages, relative ages, online
  counts, insight figures and legend shares.

Network replies, the clock, random ids and `JSON.parse` results are parameters:

- A reply is `Reply(ok, body)` or `NetworkError`.
- A body is decoded `Json(value)` or `Malformed`.
- Pages that check `response.ok` use `Http.CheckedBody`. The analytics page does not check
  it and uses `Http.UncheckedBody`.

`Math.round(part / total * 100)` is modelled in exact arithmetic as
`(200*part + total) div (2*total)`, with halves rounded up. JavaScript computes the quotient
in floating point first, so a few exact halves differ (see "## Left out"). Where the code divides by a count that can be zero without a
guard, the result is a `JsNumber` that can be `NaN` or `Infinity`. This affects the
moderator table and the category legend.

Modules: `Wrappers`, `Http`, `Rounding`, `Records`, `Text`, `Notifications`, `PostsPage`,
`StatsOverview`, `ServerStatus`, `ContentList`, `ContentSubmission`, `DashboardPage`,
`AnalyticsPage`, `Auth`, `LoginPage`, `ModeratorPerformance`, `CategoryChart`, `FetchTriggers`.

## Model

| member | source | states |
|---|---|---|
| Notifications.WithoutId | src/contexts/NotificationContext.tsx:38 | The filter never grows the list. A notification survives exactly when it was there and does not carry the removed id. |
| Notifications.Reduce | src/contexts/NotificationContext.tsx:28-43 | ADD appends the payload after an unchanged prefix. REMOVE keeps exactly the entries with a different id. Any other action returns the state unchanged. |
| Notifications.WithId | src/contexts/NotificationContext.tsx:52 | The stored notification carries the generated id. Dropping that id gives back exactly the draft the caller passed. |
| Notifications.WithoutIdAppend | src/contexts/NotificationContext.tsx:38 | Removal distributes over concatenation, so the surviving notifications keep their relative order. |
| Notifications.WithoutAbsentId | src/contexts/NotificationContext.tsx:38 | Removing an id that no entry carries leaves the list identical. |
| Notifications.WithoutIdLeavesNone | src/contexts/NotificationContext.tsx:38 | After a removal, no entry carries the removed id, even if several carried it before. |
| Notifications.WithoutIdIdempotent | src/contexts/NotificationContext.tsx:38 | Removing the same id twice equals removing it once. |
| Notifications.AddThenRemove | src/contexts/NotificationContext.tsx:30-39 | Adding a notification with a fresh id and then removing that id restores the previous state. |
| Notifications.NotificationProvider.constructor | src/contexts/NotificationContext.tsx:46 | The provider starts with no notifications. |
| Notifications.NotificationProvider.AddNotification | src/contexts/NotificationContext.tsx:48-54 | The new state is the reducer applied to ADD of the draft under the given id, which is the old list plus that one notification at the end. No duplicate check is made. |
| Notifications.NotificationProvider.RemoveNotification | src/contexts/NotificationContext.tsx:56-61 | The new state is the reducer applied to REMOVE, which is the old list without any entry carrying the id. |
| Rounding.RoundPercent | src/components/Dashboard/StatsOverview.tsx:19-21 | The result is the integer r with 2t·r ≤ 200·part + t < 2t·(r+1). That is `Math.round` of 100·part/t, with halves rounded up. |
| Rounding.RoundPercentUnique | src/components/Dashboard/StatsOverview.tsx:19-21 | Only one integer satisfies the rounding bracket, so the bracket characterises the result completely. |
| Rounding.RoundPercentInRange | src/components/Dashboard/StatsOverview.tsx:19-21 | A share 0 ≤ part ≤ total rounds to a percentage between 0 and 100. |
| Rounding.RoundPercentMonotone | src/components/Analytics/ModeratorPerformance.tsx:42 | A larger part never rounds to a smaller percentage of the same total. |
| Rounding.RoundPercentEnds | src/components/Analytics/ContentCategoryChart.tsx:41 | Nothing is 0% and the whole is 100%. |
| Rounding.JsPercent | src/components/Analytics/ContentCategoryChart.tsx:41 | With a positive total it is the finite rounded percentage, and that is non-negative. With a zero total it is NaN when the part is 0 and Infinity otherwise. |
| Rounding.GreaterThan | src/components/Analytics/ModeratorPerformance.tsx:72-73 | JavaScript's `x > k`: false for NaN, true for Infinity, and the integer comparison for a finite value. |
| Records.ArrayOrEmpty | src/pages/Posts/Posts.tsx:42-46 | An array `posts` field is used as is. Any other value gives the empty list. |
| Records.CountWhere | src/pages/Analytics/Analytics.tsx:27 | The count is at most the list length. It equals the length iff every post qualifies, and it is 0 iff none does. |
| Records.CountWhereAppend | src/pages/Analytics/Analytics.tsx:27 | The count over two concatenated lists is the sum of their counts. |
| Http.CheckedBody | src/pages/Posts/Posts.tsx:37-40 | A body is used iff the reply arrived with `ok` set and its JSON decoded; it is then that decoded value. |
| Http.UncheckedBody | src/pages/Analytics/Analytics.tsx:23-24 | A body is used iff the reply arrived and its JSON decoded, whatever the status; it is then that decoded value. |
| Http.CheckedBodyIsUncheckedBody | src/pages/Analytics/Analytics.tsx:23-24 | Skipping the `response.ok` check never loses a body that the checked path would accept. It adds one exactly when the status is an error and the body still decodes. |
| Text.NatToString | src/components/Posts/ContentList.tsx:73 | `${n}` for a natural number is non-empty and made only of digits. It starts with '0' only for 0. |
| Text.NatToStringRoundTrip | src/components/Posts/ContentList.tsx:73 | Reading the rendered digits back yields n. |
| Text.IntToString | src/components/Posts/ContentList.tsx:73 | `${i}` starts with '-' exactly when i is negative. The rest is the digits of \|i\|. |
| Text.IntToStringRoundTrip | src/components/Posts/ContentList.tsx:73 | The rendered integer reads back to i: the sign from the first character and the magnitude from the digits. |
| PostsPage.Insert | src/pages/Posts/Posts.tsx:43-45 | Inserting into a newest-first list keeps it newest-first. The result is the old list plus the post, as a multiset. |
| PostsPage.SortNewestFirst | src/pages/Posts/Posts.tsx:42-46 | The result is ordered by `createdAt` descending and is a permutation of the response's posts. |
| PostsPage.TotalPages | src/pages/Posts/Posts.tsx:22 | `Math.ceil(n/10)`: the fewest pages of ten that hold n posts. |
| PostsPage.JsSlice | src/pages/Posts/Posts.tsx:28 | `slice` never grows the list. In-range bounds give that stretch, an end at or before the start gives nothing, negative bounds count back from the end, and `slice(0, n)` with n at least the length is the whole list. |
| PostsPage.CurrentPosts | src/pages/Posts/Posts.tsx:25-29 | On page p ≥ 1 the slice has min(10, max(0, n − 10(p−1))) posts. Its i-th post is post 10(p−1)+i of the sorted list. Page 0 shows nothing. A negative page p shows posts max(0, n+10(p−1)) up to max(0, n+10p), counted as `slice` does from the end. |
| PostsPage.PagesUpToIsPrefix | src/pages/Posts/Posts.tsx:25-29 | Pages 1..k, shown in turn, are exactly the first min(10k, n) posts. |
| PostsPage.AllPagesShowAllPosts | src/pages/Posts/Posts.tsx:22-29 | Paging from 1 to totalPages shows every post once, in sorted order. |
| PostsPage.ShowsPagination | src/pages/Posts/Posts.tsx:117 | The pager is rendered iff there are at least two pages. Without it, page 1 shows every post. |
| PostsPage.PostsPage.constructor | src/pages/Posts/Posts.tsx:13-21 | The initial state: no posts, loading, form closed, filter 'all', zero counters, page 1. |
| PostsPage.PostsPage.BeginFetch | src/pages/Posts/Posts.tsx:34 | Loading starts, and nothing else changes. |
| PostsPage.PostsPage.CompleteFetch | src/pages/Posts/Posts.tsx:35-60 | A usable reply replaces the posts (sorted), the counters (or the defaults) and the page (1), and raises no notification. A failed reply keeps all three and appends exactly the load-error notification. Loading ends either way. |
| PostsPage.PostsPage.FetchPosts | src/pages/Posts/Posts.tsx:33-63 | A usable reply sets the posts to the sorted response (newest-first, a permutation of it), the counters to the body's or the defaults, and the page to 1, with no notification. A failed one keeps all three and appends exactly the load-error notification. Loading ends. |
| PostsPage.PostsPage.FetchPostsIntended | src/pages/Posts/Posts.tsx:49-50 | The reset the comment describes: a successful fetch for the current filter goes to page 1, and a successful interval refresh keeps the page. Posts, counters, notifications and loading end up as in `FetchPosts`. |
| PostsPage.PostsPage.HandleContentSubmitted | src/pages/Posts/Posts.tsx:70-77 | The form closes and the submission notification is appended. The list is untouched. |
| PostsPage.PostsPage.ToggleSubmitForm | src/pages/Posts/Posts.tsx:84 | The form's visibility flips, and nothing else changes. |
| PostsPage.PostsPage.CancelSubmission | src/pages/Posts/Posts.tsx:98 | The form closes without a notification. |
| PostsPage.PostsPage.SetFilter | src/pages/Posts/Posts.tsx:16 | Only the filter changes. The next fetch uses it. |
| PostsPage.PostsPage.ChangePage | src/pages/Posts/Posts.tsx:121 | The page number is set as given, without clamping. |
| PostsPage.PostsPage.View | src/pages/Posts/Posts.tsx:108-125 | The spinner shows iff loading. Otherwise the listing is `CurrentPosts(posts, currentPage)`, at most ten posts on a page from 1 up. The pager is shown iff there are more than ten posts. |
| PostsPage.RefreshLeavesThePage | src/pages/Posts/Posts.tsx:49-50 | As written, a reader on any page other than 1 is back on page 1 after a successful refresh of the page object, with the filter unchanged. |
| PostsPage.RefreshKeepsThePage | src/pages/Posts/Posts.tsx:49-50 | Under the intended rule, a refresh with any reply leaves the reader on their page. A successful fetch after a filter change then returns to page 1, and a failed one keeps the page. |
| StatsOverview.ApprovalRate | src/components/Dashboard/StatsOverview.tsx:19-21 | 0 when the total is not positive. Otherwise the rounded share approved/total, which lies in 0..100 for consistent counters. |
| StatsOverview.RejectionRate | src/components/Dashboard/StatsOverview.tsx:23-25 | The same as the approval rate, but for rejected/total. |
| StatsOverview.PendingReview | src/components/Dashboard/StatsOverview.tsx:51 | Pending plus processing, with a missing processing counter taken as 0. |
| StatsOverview.Cards | src/components/Dashboard/StatsOverview.tsx:29-54 | Four cards in order: Total (blue, no bar), Approved (green, approval rate), Rejected (red, rejection rate), Pending Review (amber, no bar). |
| StatsOverview.CardRates | src/components/Dashboard/StatsOverview.tsx:35-48 | With consistent counters, only the two rate cards carry a bar, and every bar is within 0..100. |
| StatsOverview.TotalIsNotRecomputed | src/components/Dashboard/StatsOverview.tsx:31 | The Total card shows the backend's total, whatever the other counters add up to. |
| StatsOverview.ExampleRates | src/components/Dashboard/StatsOverview.tsx:19-25 | 70 approved and 20 rejected of 100 show as 70% and 20%. |
| ServerStatus.OnlineServers | src/components/Dashboard/ServerStatus.tsx:20 | The online count is at most the number of servers. It equals it iff every value is online, and it is 0 iff none is. |
| ServerStatus.OnlineServersAppend | src/components/Dashboard/ServerStatus.tsx:20 | Online counts add over concatenated entry lists. |
| ServerStatus.IsOnline | src/components/Dashboard/ServerStatus.tsx:13-16 | A value counts as online iff it is `true`, 'busy' or 'idle'. The word 'online' does not count. |
| ServerStatus.TotalServers | src/components/Dashboard/ServerStatus.tsx:19 | The server count is the number of entries; it is 0 exactly when there are none. |
| ServerStatus.OnlinePercentage | src/components/Dashboard/ServerStatus.tsx:23 | For a non-empty map it is the rounded share `RoundPercent(online, total)`. It is 0 with no servers. It always lies within 0..100, with 100 when all are online and 0 when none is. |
| ServerStatus.Rows | src/components/Dashboard/ServerStatus.tsx:52-72 | One row per entry, in order, marked online by the same test as the header count. A boolean is labelled 'Online' or 'Offline' by its value. A string status is shown verbatim. |
| ServerStatus.Label | src/components/Dashboard/ServerStatus.tsx:68 | A boolean reads 'Online' exactly when true and 'Offline' exactly when false. A string reads as itself. |
| ServerStatus.BooleanLabelMatchesDot | src/components/Dashboard/ServerStatus.tsx:53-68 | For a boolean status, the row's text is 'Online' exactly when its dot is green, and 'Offline' exactly when it is red. |
| ServerStatus.RowsAgreeWithCount | src/components/Dashboard/ServerStatus.tsx:20-53 | The rows marked online are exactly as many as the header's online count. |
| ServerStatus.OnlineIndexCount | src/components/Dashboard/ServerStatus.tsx:20 | The online count is the number of positions whose value is online. |
| ServerStatus.OnlineWordIsNotOnline | src/components/Dashboard/ServerStatus.tsx:13-16 | The strings 'busy' and 'idle' count as online. 'online' and 'offline' do not. |
| ServerStatus.ExampleBusyAndOffline | src/components/Dashboard/ServerStatus.tsx:19-23 | A busy and an offline server show as 1 of 2 online, which is 50%. |
| ContentList.TimeAgo | src/components/Posts/ContentList.tsx:68-80 | The bucket is seconds, minutes, hours or days iff the elapsed time is below 1 minute, below 1 hour, below 1 day, or longer. The count shown is the floor of the elapsed time in that unit. |
| ContentList.AgoText | src/components/Posts/ContentList.tsx:73-79 | The text starts with the rendered count, whose digits read back to the count, and continues with the bucket's own unit and 'ago'. |
| ContentList.ExampleTwoMinutes | src/components/Posts/ContentList.tsx:73-75 | A post 150 seconds old reads "2 minutes ago". |
| ContentList.StatusTone | src/components/Posts/ContentList.tsx:39-66 | Green iff approved, red iff rejected, blue iff processing, and amber for every other status. |
| ContentList.BorderAgreesWithBadge | src/components/Posts/ContentList.tsx:93-96 | The card border's colour chain always picks the badge's colour. |
| ContentList.BorderTone | src/components/Posts/ContentList.tsx:93-96 | Green iff approved, red iff rejected, blue iff processing, amber for every other status. |
| ContentList.Render | src/components/Posts/ContentList.tsx:25-37 | The empty-state message appears iff there are no posts. Otherwise there is one card per post, in order, with the post's status colour on badge and border, its age bucket, and that bucket's text. Each card's worker and note follow `WorkerText` and `NoteText`. |
| ContentList.WorkerText | src/components/Posts/ContentList.tsx:128 | `post.worker || 'Unassigned'`: a non-empty worker is shown as it is, and a missing or empty one reads 'Unassigned'. The text is never empty. |
| ContentList.NoteText | src/components/Posts/ContentList.tsx:116-125 | The moderation note is shown iff the details are present and non-empty, and it is then exactly those details. |
| ContentSubmission.WhitespaceOnlyIsBlank | src/components/Posts/ContentSubmission.tsx:38 | Spaces, tabs and newlines trim to nothing, and one visible character does not. |
| ContentSubmission.TrimStart | src/components/Posts/ContentSubmission.tsx:38 | The rest after leading white space is a suffix of the input and starts with a visible character. It is empty iff every character is white space. |
| ContentSubmission.Blank | src/components/Posts/ContentSubmission.tsx:38 | A field is blank iff trimming leaves nothing. |
| ContentSubmission.CanSubmit | src/components/Posts/ContentSubmission.tsx:38 | The form may be sent iff title, content and author each keep something after trimming. |
| ContentSubmission.SubmissionForm.constructor | src/components/Posts/ContentSubmission.tsx:28-33 | The form starts with empty fields, category 'general', not submitting and no error. |
| ContentSubmission.SubmissionForm.Edit | src/components/Posts/ContentSubmission.tsx:105-163 | The inputs set their fields, and nothing else changes. |
| ContentSubmission.SubmissionForm.BeginSubmit | src/components/Posts/ContentSubmission.tsx:35-59 | A request is sent iff title, content and author are all non-blank. The request carries the fields, the category and server 'server1'. Otherwise the fill-in error is set and nothing is sent. |
| ContentSubmission.SubmissionForm.CompleteSubmit | src/components/Posts/ContentSubmission.tsx:61-78 | An ok response clears the fields, resets the category and calls `onSuccess` once. A failure keeps the fields and sets the submit error. Submitting ends either way. |
| ContentSubmission.SubmissionForm.HandleSubmit | src/components/Posts/ContentSubmission.tsx:35-79 | With a blank required field, nothing is sent, the fill-in error is set and every field is kept. Otherwise the request carries the fields and 'server1'. An ok response then clears title, content and author, resets the category and calls `onSuccess` once. A failure keeps all four fields and sets the submit error. |
| DashboardPage.RecentPosts | src/pages/Dashboard/Dashboard.tsx:48 | The first min(5, n) posts of an array field, as a prefix. Any other field gives no posts. |
| DashboardPage.Dashboard.constructor | src/pages/Dashboard/Dashboard.tsx:14-23 | The dashboard starts loading, with zero counters, no servers and no recent posts. |
| DashboardPage.Dashboard.BeginFetch | src/pages/Dashboard/Dashboard.tsx:28 | Loading starts, and the data is unchanged. |
| DashboardPage.Dashboard.CompleteFetch | src/pages/Dashboard/Dashboard.tsx:29-58 | The status endpoint is asked iff the posts reply is usable. Only when both replies are usable are counters, servers and recent posts replaced together. Otherwise all three are kept and the dashboard error is appended. |
| DashboardPage.Dashboard.FetchDashboardData | src/pages/Dashboard/Dashboard.tsx:27-62 | The status endpoint is asked iff the posts reply is usable. With both usable, the counters become the body's or the defaults, the servers become the status body, and the recent posts become the first five of the posts array, with no notification. Otherwise all three are kept and exactly the Dashboard Error notification is appended. |
| DashboardPage.Dashboard.View | src/pages/Dashboard/Dashboard.tsx:67-76 | Only the spinner renders while loading. Otherwise the panels show the page's state. |
| AnalyticsPage.TotalTimeOfUnprocessed | src/pages/Analytics/Analytics.tsx:28 | Posts without a truthy processing time contribute nothing to the total time. |
| AnalyticsPage.HasProcessingTime | src/pages/Analytics/Analytics.tsx:27 | A post counts as processed iff `p.processingTime || 0` is non-zero: a missing time or 0 does not count. |
| AnalyticsPage.TotalTime | src/pages/Analytics/Analytics.tsx:28 | With no negative processing time the total is not negative. |
| AnalyticsPage.TotalTimeAppend | src/pages/Analytics/Analytics.tsx:28 | The total over two lists laid end to end is the sum of their totals. |
| AnalyticsPage.PostsOrEmpty | src/pages/Analytics/Analytics.tsx:25 | `data.posts || []`: an array is used as it is and a missing field becomes the empty list. Only a non-array value fails, as the `filter` call then throws. |
| AnalyticsPage.ComputeInsights | src/pages/Analytics/Analytics.tsx:25-39 | The volume is the number of posts. The approval rate is the rounded approved share, and 0 for no posts. The average exists iff some post has a truthy processing time. It is then `TotalTime(posts)` over that count. |
| AnalyticsPage.ApprovalRateExtremes | src/pages/Analytics/Analytics.tsx:30-32 | All approved gives 100%, and none approved gives 0%. |
| AnalyticsPage.Analytics.constructor | src/pages/Analytics/Analytics.tsx:11-17 | The page starts loading, with period 'week' and the '0s' / '0%' / '0' insights. |
| AnalyticsPage.Analytics.SetPeriod | src/pages/Analytics/Analytics.tsx:61 | Only the period changes. |
| AnalyticsPage.Analytics.BeginFetch | src/pages/Analytics/Analytics.tsx:21 | Loading starts. |
| AnalyticsPage.Analytics.CompleteFetch | src/pages/Analytics/Analytics.tsx:22-44 | A decodable body with an array or missing `posts` replaces the insights, whatever the HTTP status. Any other reply keeps them and raises no notification. Loading ends. |
| AnalyticsPage.Analytics.FetchInsights | src/pages/Analytics/Analytics.tsx:20-47 | A decodable body, whatever the status, sets the insights to `ComputeInsights` of its posts array, or to the empty list's figures when `posts` is missing. A `posts` that is not an array, a network failure or an undecodable body keeps the old insights. |
| Auth.LoginUser | src/contexts/AuthContext.tsx:57-62 | Every sign-in yields id '1', username 'Admin', role admin and the email as typed. |
| Auth.Serialize | src/contexts/AuthContext.tsx:44 | `JSON.stringify(user)` is an object text: it opens with `{"id":` and ends with `}`. |
| Auth.HasSavedUser | src/contexts/AuthContext.tsx:26-27 | A saved user is used only when the 'user' entry exists and is not empty. |
| Auth.SavedUserIsFound | src/contexts/AuthContext.tsx:26-27 | What a sign-in stores under 'user' is always found by the next load's check. |
| Auth.AuthProvider.constructor | src/contexts/AuthContext.tsx:21-22 | The session starts with no user, loading. |
| Auth.AuthProvider.Init | src/contexts/AuthContext.tsx:24-49 | With no saved entry, or an empty one, the mock admin is stored and signed in. A parsable entry becomes the user, possibly null. An unparsable entry is removed and the user is left as it was. Loading ends. |
| Auth.AuthProvider.BeginLogin | src/contexts/AuthContext.tsx:52 | Loading starts, and the user and storage are unchanged. |
| Auth.AuthProvider.CompleteLogin | src/contexts/AuthContext.tsx:57-66 | The login user is signed in and saved under 'user' as JSON. Loading ends. |
| Auth.AuthProvider.Login | src/contexts/AuthContext.tsx:51-67 | Any email and password sign in: the user is authenticated and saved. |
| Auth.AuthProvider.Logout | src/contexts/AuthContext.tsx:69-72 | The user is cleared and the 'user' entry is removed. Nothing else in storage changes. |
| Auth.AuthProvider.IsAuthenticated | src/contexts/AuthContext.tsx:78 | Authenticated iff a user is present. |
| Auth.LoginThenLogout | src/contexts/AuthContext.tsx:51-72 | Signing in and then out leaves no user and no saved entry. The rest of storage is as before. |
| LoginPage.Login.constructor | src/pages/Auth/Login.tsx:12-15 | The page starts with empty fields, no error and no navigation. |
| LoginPage.Login.Edit | src/pages/Auth/Login.tsx:91-109 | The inputs set email and password, and nothing else changes. |
| LoginPage.Login.RedirectIfAuthenticated | src/pages/Auth/Login.tsx:18-22 | An authenticated visitor is sent to /dashboard. Otherwise the location is unchanged. |
| LoginPage.Login.HandleSubmit | src/pages/Auth/Login.tsx:24-38 | An empty email or password sets the missing-fields error and leaves the session alone. Otherwise the session signs in, stops loading, saves the serialized user under 'user' and the page navigates to /dashboard. |
| LoginPage.Login.View | src/pages/Auth/Login.tsx:40-46 | Only the spinner renders while the session is loading. Otherwise the form shows the page's error. |
| ModeratorPerformance.ApprovalRate | src/components/Analytics/ModeratorPerformance.tsx:42 | For a moderator with processed items, the finite rounded share, within 0..100 when consistent. With none processed, it is not finite. |
| ModeratorPerformance.RateBand | src/components/Analytics/ModeratorPerformance.tsx:72-74 | Green iff the rate is above 80, blue iff above 60 and not above 80, and amber otherwise, including NaN. |
| ModeratorPerformance.RateBandOrdered | src/components/Analytics/ModeratorPerformance.tsx:72-74 | Bands are monotone in the rate. Blue is exactly 61..80. |
| ModeratorPerformance.ApprovingMoreNeverBandsWorse | src/components/Analytics/ModeratorPerformance.tsx:42-74 | Of two moderators with the same workload, the one approving more never gets a worse band. |
| ModeratorPerformance.Rows | src/components/Analytics/ModeratorPerformance.tsx:41-90 | One row per moderator, in order, with that moderator's rate and band. |
| ModeratorPerformance.ExampleMockRows | src/components/Analytics/ModeratorPerformance.tsx:8-42 | Worker1 (98/124) shows 79% blue, and Worker3 (82/97) shows 85% green. |
| CategoryChart.Total | src/components/Analytics/ContentCategoryChart.tsx:17 | Every category's value is at most the total. The total is 0 iff every value is 0. |
| CategoryChart.TotalAppend | src/components/Analytics/ContentCategoryChart.tsx:17 | Totals add over concatenated category lists. |
| CategoryChart.Legend | src/components/Analytics/ContentCategoryChart.tsx:34-42 | One line per category, in order, with its share of the total. Every share is finite and within 0..100 when the total is positive. |
| CategoryChart.BarSegments | src/components/Analytics/ContentCategoryChart.tsx:23-28 | The bar's segments name the same categories in the same order as the legend. |
| FetchTriggers.FetchesDuringOutage | src/pages/Posts/Posts.tsx:63-67 | While the backend is down, the fetches started by the first k events number at most k, and none without events. |
| FetchTriggers.OutageNeverSettles | src/pages/Posts/Posts.tsx:67 | As written, every event handled during an outage starts another failing fetch, so the count equals the number of events handled. |
| FetchTriggers.OutageAfterMountAsWritten | src/pages/Dashboard/Dashboard.tsx:61-65 | As written, mounting a page while the backend is down leads to as many fetches as events handled, however many. |
| FetchTriggers.NotificationChangesStartNoFetch | src/contexts/NotificationContext.tsx:48-54 | With a stable `addNotification`, changes of the notification list start no fetch. |
| FetchTriggers.OutageAfterMountIntended | src/pages/Posts/Posts.tsx:63-67 | With a stable `addNotification`, mounting during an outage makes exactly one fetch until the next tick or filter change. |
| CategoryChart.ExampleMockLegend | src/components/Analytics/ContentCategoryChart.tsx:8-41 | The sample categories total 100 and show 35, 25, 20, 15 and 5%. |

## Left out

- Network access, URL construction (the `filter` and `period` query strings) and the request headers are left out. Replies are inputs, and the sent request is an output value.
- `setInterval` polling (every 10 s on the content page and the dashboard) and its clean-up are left out. So is the effect re-running on its dependencies. Each run is one call of the page's fetch method: on mount, on each tick, on a filter change, and on every change of the notification list. `FetchTriggers` models only which events start a fetch. Interleavings of overlapping in-flight requests are not modelled: each `Begin`/`Complete` pair is applied as written, in the order the caller chooses.
- The one-second delay inside `login` is not modelled as a timer; it is the split between `BeginLogin` and `CompleteLogin`.
- `Math.random().toString(36)` notification ids are a parameter.
- `new Date()` and the parsing of `createdAt` strings are left out. Timestamps are integers in milliseconds, and `TimeAgo` takes the elapsed time. An unparsable date (NaN) is not represented.
- `JSON.parse` of the saved user is an input (`Auth.ParseOutcome`). The shape of a parsed user is not checked, as the code does not check it either.
- Floating point is left out: the average processing time's division and `toFixed(1)`, bar widths, the moderators' `avgTime`, and the `avgTime < 2` colouring.
- Rounding.RoundPercent: the value is computed in exact arithmetic. JavaScript computes `part / total * 100` in binary floating point first, so at some exact halves it rounds down, for example 29/200 gives 14 rather than 15.
- AnalyticsPage.ComputeInsights: the average is kept as the pair (total time, processed count) rather than the formatted seconds string, because the division is floating point.
- Text.NatToString: matches JavaScript's `${n}` only below 10^21. From there on JavaScript switches to exponent form, such as `1e+21`.
- PostsPage.SortNewestFirst: the sort is stable like JavaScript's, but stability is not stated as a property. Only the order and the permutation are stated.
- Presentation is left out: theme classes, icons, status capitalisation (`charAt(0).toUpperCase()`), the `Completed:` locale date, the header, sidebar, layout, recent-content panel, the processing-time and activity charts, the filters panel, the router and the not-found page.
- NotificationCenter's rendering and its 5-second auto-dismissal are not part of this model; only the provider's list is. Each auto-dismissal is a change of the list, so it too re-runs both pages' fetches (`FetchTriggers.NotificationsChanged`).
- The sign-in page's rejection branch ('Invalid email or password') is not reachable with this session provider, because `login` never rejects. The model therefore always navigates after a non-empty submission.
- A body that is JSON `null` is not represented: a decoded body is always an object. On the content page and the analytics page, reading `.posts` of `null` throws into the same `catch` as an undecodable body, so nothing is lost there. On the dashboard two cases differ from the model:
  - DashboardPage.Dashboard.CompleteFetch: a `null` posts body still leads to the status request (src/pages/Dashboard/Dashboard.tsx:36) before `postsData.stats` throws (:40). The model, which treats it as undecodable, reports that the status endpoint was not asked.
  - DashboardPage.Dashboard.CompleteFetch: a `null` status body throws nothing in the handler. The counters and recent posts are stored and the server map becomes `null` (:40-48), and the server panel then throws while rendering (`Object.keys(null)`, src/components/Dashboard/ServerStatus.tsx:19). The model has no `null` server map.
- The code has none of the following, and neither does the model:
  - generation tokens that discard superseded replies;
  - de-duplication of repeated failure notifications;
  - an `id` tie-break in the sort;
  - a notification on analytics failures (the code only logs them).

## Findings

| source | as written | input that shows it | evidently intended | confidence | as-written member | corrected member |
|---|---|---|---|---|---|---|
| src/pages/Posts/Posts.tsx:67 | Both pages re-run their fetch effect whenever `addNotification` changes (src/pages/Posts/Posts.tsx:67, src/pages/Dashboard/Dashboard.tsx:65). The provider creates a new `addNotification` on every render (src/contexts/NotificationContext.tsx:48-54). A failed fetch adds a notification, which re-renders the provider, which starts the next fetch. | The backend is down while the content page or the dashboard is mounted. Every fetch fails, and each failure's error notification starts another fetch and adds another notification, without waiting for the 10-second tick. | Fetch on mount, on a filter change and every 10 seconds. An error notification does not start a fetch, for example with `addNotification` memoised. | medium, not executed | FetchTriggers.OutageAfterMountAsWritten | FetchTriggers.OutageAfterMountIntended |
| src/pages/Posts/Posts.tsx:49-50 | Every successful `fetchPosts` calls `setCurrentPage(1)`, the 10-second interval's refreshes included, although the comment says the reset is for a filter change. | A reader moves to page 3 of a long list. Within 10 seconds the next refresh succeeds and the list jumps back to page 1. | Reset to page 1 only when the filter changes; a refresh keeps the current page. | high, not executed | PostsPage.RefreshLeavesThePage | PostsPage.PostsPage.FetchPostsIntended |

=== FILE: analytics_page.dfy ===
/**
 * The analytics page's Moderation Insights: approval rate, content volume and the
 * processing-time average, recomputed from the posts of the selected period.
 */
module AnalyticsPage {
  import opened Wrappers
  import opened Http
  import opened Records
  import opened Rounding

  /** The body of `GET /api/posts?period=...` as this page reads it: only `posts`. */
  datatype AnalyticsBody = AnalyticsBody(posts: PostsField)

  /**
   * The average processing time, kept as the exact sum and count whose quotient the page
   * formats with `toFixed(1)`; `NoneProcessed` is the literal '0'.
   */
  datatype AverageTime = NoneProcessed | Average(totalTime: int, processed: nat)

  /** The three insight values; the page renders them as '<avg>s', '<rate>%' and '<volume>'. */
  datatype Insights = Insights(avgProcessingTime: AverageTime, approvalRate: int, contentVolume: nat)

  const InitialInsights := Insights(NoneProcessed, 0, 0)

  /** `p.processingTime` is truthy: present and non-zero. */
  function HasProcessingTime(p: Post): (b: bool)
    ensures p.processingTime.None? || p.processingTime == Some(0) ==> !b
    ensures b <==> p.processingTime.GetOr(0) != 0
  {
    p.processingTime.Some? && p.processingTime.value != 0
  }

  predicate IsApproved(p: Post) {
    p.status == "approved"
  }

  /** `posts.reduce((sum, p) => sum + (p.processingTime || 0), 0)` */
  function TotalTime(posts: seq<Post>): (r: int)
    ensures (forall i :: 0 <= i < |posts| ==> posts[i].processingTime.GetOr(0) >= 0) ==> r >= 0
  {
    if posts == [] then 0 else posts[0].processingTime.GetOr(0) + TotalTime(posts[1..])
  }

  /** The total over two lists laid end to end is the sum of their totals. */
  lemma {:induction false} TotalTimeAppend(a: seq<Post>, b: seq<Post>)
    ensures TotalTime(a + b) == TotalTime(a) + TotalTime(b)
  {
    if a != [] {
      TotalTimeAppend(a[1..], b);
      assert (a + b)[1..] == a[1..] + b;
    } else {
      assert a + b == b;
    }
  }

  /** Posts without a truthy processing time add nothing to the total time. */
  lemma {:induction false} TotalTimeOfUnprocessed(posts: seq<Post>)
    requires forall i :: 0 <= i < |posts| ==> !HasProcessingTime(posts[i])
    ensures TotalTime(posts) == 0
  {
    if posts != [] {
      TotalTimeOfUnprocessed(posts[1..]);
    }
  }

  /** The insight values computed from one list of posts. */
  function ComputeInsights(posts: seq<Post>): (r: Insights)
    ensures r.contentVolume == |posts|
    ensures 0 <= r.approvalRate <= 100
    ensures |posts| == 0 ==> r.approvalRate == 0
    ensures |posts| > 0 ==> r.approvalRate == RoundPercent(CountWhere(posts, IsApproved), |posts|)
    ensures r.avgProcessingTime.NoneProcessed? <==> CountWhere(posts, HasProcessingTime) == 0
    ensures r.avgProcessingTime.Average? ==>
              && r.avgProcessingTime.processed == CountWhere(posts, HasProcessingTime) > 0
              && r.avgProcessingTime.totalTime == TotalTime(posts)
  {
    var totalProcessed := CountWhere(posts, HasProcessingTime);
    var avg := if totalProcessed > 0 then Average(TotalTime(posts), totalProcessed) else NoneProcessed;
    var approvalRate :=
      if |posts| > 0 then
        RoundPercentInRange(CountWhere(posts, IsApproved), |posts|);
        RoundPercent(CountWhere(posts, IsApproved), |posts|)
      else 0;
    Insights(avg, approvalRate, |posts|)
  }

  /** Every post approved means an approval rate of 100%, none approved 0%. */
  lemma ApprovalRateExtremes(posts: seq<Post>)
    requires |posts| > 0
    ensures (forall i :: 0 <= i < |posts| ==> IsApproved(posts[i])) ==> ComputeInsights(posts).approvalRate == 100
    ensures (forall i :: 0 <= i < |posts| ==> !IsApproved(posts[i])) ==> ComputeInsights(posts).approvalRate == 0
  {
    RoundPercentEnds(|posts|);
  }

  /**
   * `posts` as the page reads it: `data.posts || []`. A falsy field counts as no posts;
   * a truthy value that is not an array makes `posts.filter` throw (`None`).
   */
  function PostsOrEmpty(f: PostsField): (r: Option<seq<Post>>)
    ensures r.None? <==> f.NotArray?
    ensures f.PostArray? ==> r == Some(f.items)
    ensures f.Missing? ==> r == Some([])
  {
    match f
    case PostArray(items) => Some(items)
    case Missing => Some([])
    case NotArray => None
  }

  class Analytics {
    var isLoading: bool
    var period: string
    var insights: Insights

    constructor ()
      ensures isLoading && period == "week" && insights == InitialInsights
    {
      isLoading, period, insights := true, "week", InitialInsights;
    }

    /** The period selector; the page fetches again for the new period. */
    method SetPeriod(p: string)
      modifies this
      ensures period == p && insights == old(insights) && isLoading == old(isLoading)
    {
      period := p;
    }

    /** `fetchInsights` up to its `await`. */
    method BeginFetch()
      modifies this
      ensures isLoading && period == old(period) && insights == old(insights)
    {
      isLoading := true;
    }

    /**
     * `fetchInsights` after its `await`. The status is never checked: any body that parses
     * is used. A reply that does not arrive or does not parse, or a `posts` that is not an
     * array, leaves the insights as they were, with no notification.
     */
    method CompleteFetch(reply: Reply<AnalyticsBody>)
      modifies this
      ensures !isLoading && period == old(period)
      ensures UncheckedBody(reply).Some? && PostsOrEmpty(UncheckedBody(reply).value.posts).Some? ==>
                insights == ComputeInsights(PostsOrEmpty(UncheckedBody(reply).value.posts).value)
      ensures UncheckedBody(reply).None? || PostsOrEmpty(UncheckedBody(reply).value.posts).None? ==>
                insights == old(insights)
    {
      var body := UncheckedBody(reply);
      if body.Some? {
        var posts := PostsOrEmpty(body.value.posts);
        if posts.Some? {
          insights := ComputeInsights(posts.value);
        }
      }
      isLoading := false;
    }

    /** One whole `fetchInsights`, on mount or on a change of period. */
    method FetchInsights(reply: Reply<AnalyticsBody>)
      modifies this
      ensures !isLoading && period == old(period)
      ensures reply.Reply? && reply.body.Json? && reply.body.value.posts.Missing? ==>
                insights == Insights(NoneProcessed, 0, 0)
      ensures reply.Reply? && reply.body.Json? && reply.body.value.posts.PostArray? ==>
                && insights == ComputeInsights(reply.body.value.posts.items)
                && insights.contentVolume == |reply.body.value.posts.items|
                && 0 <= insights.approvalRate <= 100
      ensures reply.Reply? && reply.body.Json? && reply.body.value.posts.NotArray? ==>
                insights == old(insights)
      ensures reply.NetworkError? || reply.body.Malformed? ==> insights == old(insights)
    {
      BeginFetch();
      CompleteFetch(reply);
    }
  }
}

=== FILE: auth.dfy ===
/**
 * The session: the signed-in user, kept in browser storage under the key 'user'.
 * The storage is a map from keys to strings; what `JSON.parse` makes of a saved entry
 * is an input.
 */
module Auth {
  import opened Wrappers

  datatype Role = Admin | Moderator | RegularUser

  datatype User = User(id: string, username: string, email: string, role: Role)

  /** What `JSON.parse` made of a saved entry: a user, `null`, or a thrown error. */
  datatype ParseOutcome = Parsed(user: Option<User>) | ParseError

  const UserKey := "user"

  /** The demo user written on first visit. */
  const MockUser := User("1", "Admin", "admin@example.com", Admin)

  /** The user every login signs in, whatever the password: id '1', 'Admin', role admin. */
  function LoginUser(email: string): (u: User)
    ensures u.email == email && u.id == "1" && u.username == "Admin" && u.role == Admin
  {
    User("1", "Admin", email, Admin)
  }

  function HexDigit(d: nat): char
    requires d < 16
  {
    "0123456789abcdef"[d]
  }

  /** One character inside a `JSON.stringify` string literal. */
  function EscapeChar(c: char): string {
    var k := c as int;
    if k >= 0x20 && k != 0x22 && k != 0x5C then [c]
    else if k == 0x22 then "\\\""
    else if k == 0x5C then "\\\\"
    else if k == 0x0A then "\\n"
    else if k == 0x0D then "\\r"
    else if k == 0x09 then "\\t"
    else if k == 0x08 then "\\b"
    else if k == 0x0C then "\\f"
    else "\\u00" + [HexDigit(k / 16), HexDigit(k % 16)]
  }

  function Concat(parts: seq<string>): string {
    if parts == [] then "" else parts[0] + Concat(parts[1..])
  }

  function EscapeString(s: string): string {
    Concat(seq(|s|, i requires 0 <= i < |s| => EscapeChar(s[i])))
  }

  function Quote(s: string): string {
    "\"" + EscapeString(s) + "\""
  }

  function RoleName(r: Role): string {
    match r
    case Admin => "admin"
    case Moderator => "moderator"
    case RegularUser => "user"
  }

  /** `JSON.stringify(user)`, fields in declaration order. */
  function Serialize(u: User): (s: string)
    ensures 2 <= |s| && s[0] == '{' && s[|s| - 1] == '}'
    ensures 6 <= |s| && s[..6] == "{\"id\":"
  {
    "{\"id\":" + Quote(u.id) + ",\"username\":" + Quote(u.username)
      + ",\"email\":" + Quote(u.email) + ",\"role\":" + Quote(RoleName(u.role)) + "}"
  }

  /** What the first visit writes to storage. */
  const MockUserJson := Serialize(MockUser)

  /** `if (savedUser)`: an entry is used only when it is present and not the empty string. */
  function HasSavedUser(storage: map<string, string>): (b: bool)
    ensures b ==> UserKey in storage && |storage[UserKey]| > 0
    ensures UserKey in storage && storage[UserKey] == "" ==> !b
  {
    UserKey in storage && storage[UserKey] != ""
  }

  /** What a sign-in writes is found again on the next load: a serialized user is never empty. */
  lemma SavedUserIsFound(storage: map<string, string>, u: User)
    ensures HasSavedUser(storage[UserKey := Serialize(u)])
  {
    var s := Serialize(u);
    assert s[0] == '{';
  }

  class AuthProvider {
    var user: Option<User>
    var isLoading: bool
    var storage: map<string, string>

    constructor (storage: map<string, string>)
      ensures user == None && isLoading && this.storage == storage
    {
      user, isLoading, this.storage := None, true, storage;
    }

    /**
     * The mount effect. A saved entry that parses becomes the user; one that does not is
     * removed and the user stays signed out (no demo user then). With no saved entry the
     * demo user is written to storage and signed in. Loading ends either way.
     */
    method Init(parse: ParseOutcome)
      modifies this
      ensures !isLoading
      ensures !HasSavedUser(old(storage)) ==>
                user == Some(MockUser) && storage == old(storage)[UserKey := MockUserJson]
      ensures HasSavedUser(old(storage)) && parse.Parsed? ==>
                user == parse.user && storage == old(storage)
      ensures HasSavedUser(old(storage)) && parse.ParseError? ==>
                user == old(user) && storage == old(storage) - {UserKey} && UserKey !in storage
    {
      if HasSavedUser(storage) {
        match parse {
          case Parsed(u) => user := u;
          case ParseError => storage := storage - {UserKey};
        }
      } else {
        storage := storage[UserKey := MockUserJson];
        user := Some(MockUser);
      }
      isLoading := false;
    }

    /** `login` up to its one-second delay. */
    method BeginLogin()
      modifies this
      ensures isLoading && user == old(user) && storage == old(storage)
    {
      isLoading := true;
    }

    /** `login` after the delay: the password plays no part. */
    method CompleteLogin(email: string)
      modifies this
      ensures !isLoading
      ensures user == Some(LoginUser(email))
      ensures storage == old(storage)[UserKey := Serialize(LoginUser(email))]
    {
      var u := LoginUser(email);
      storage := storage[UserKey := Serialize(u)];
      user := Some(u);
      isLoading := false;
    }

    /** One whole `login`; it never rejects. */
    method Login(email: string, password: string)
      modifies this
      ensures !isLoading && IsAuthenticated()
      ensures user == Some(LoginUser(email))
      ensures storage == old(storage)[UserKey := Serialize(LoginUser(email))]
    {
      BeginLogin();
      CompleteLogin(email);
    }

    /** `logout`: forget the saved entry and sign out. */
    method Logout()
      modifies this
      ensures user == None && !IsAuthenticated()
      ensures storage == old(storage) - {UserKey} && UserKey !in storage
      ensures isLoading == old(isLoading)
    {
      storage := storage - {UserKey};
      user := None;
    }

    /** `!!user` */
    function IsAuthenticated(): (b: bool)
      reads this
      ensures b <==> user.Some?
    {
      user.Some?
    }
  }

  /** Signing in and then out leaves storage without a saved user, whatever was there before. */
  method LoginThenLogout(auth: AuthProvider, email: string, password: string)
    modifies auth
    ensures !auth.IsAuthenticated() && UserKey !in auth.storage
    ensures auth.storage == old(auth.storage) - {UserKey}
  {
    auth.Login(email, password);
    auth.Logout();
  }
}

=== FILE: category_chart.dfy ===
/** The Content Categories chart: a stacked bar and a legend of rounded shares. */
module CategoryChart {
  import opened Rounding

  datatype Category = Category(name: string, value: nat)

  const MockCategories := [
    Category("Articles", 35),
    Category("Blog Posts", 25),
    Category("News", 20),
    Category("Reviews", 15),
    Category("Other", 5)
  ]

  /** `categories.reduce((sum, c) => sum + c.value, 0)`, also shown as 'Total Content: <total> items'. */
  function Total(cs: seq<Category>): (t: nat)
    ensures forall i :: 0 <= i < |cs| ==> cs[i].value <= t
    ensures t == 0 <==> forall i :: 0 <= i < |cs| ==> cs[i].value == 0
  {
    if cs == [] then 0
    else
      var rest := Total(cs[1..]);
      assert forall i :: 1 <= i < |cs| ==> cs[i] == cs[1..][i - 1];
      cs[0].value + rest
  }

  /** The total of two lists laid end to end is the sum of their totals. */
  lemma {:induction false} TotalAppend(a: seq<Category>, b: seq<Category>)
    ensures Total(a + b) == Total(a) + Total(b)
  {
    if a == [] {
      assert a + b == b;
    } else {
      assert (a + b)[1..] == a[1..] + b;
      TotalAppend(a[1..], b);
    }
  }

  /** One legend line: the category's name and `Math.round(value / total * 100)`. */
  datatype LegendLine = LegendLine(name: string, percent: JsNumber)

  /** The legend, in input order. */
  function Legend(cs: seq<Category>): (ls: seq<LegendLine>)
    ensures |ls| == |cs|
    ensures forall i :: 0 <= i < |cs| ==> ls[i].name == cs[i].name
    ensures forall i :: 0 <= i < |cs| ==> ls[i].percent == JsPercent(cs[i].value, Total(cs))
    ensures Total(cs) > 0 ==> forall i :: 0 <= i < |cs| ==>
              ls[i].percent.Finite? && 0 <= ls[i].percent.n <= 100
  {
    var t := Total(cs);
    var ls := seq(|cs|, i requires 0 <= i < |cs| => LegendLine(cs[i].name, JsPercent(cs[i].value, t)));
    assert t > 0 ==> forall i :: 0 <= i < |cs| ==> ls[i].percent.Finite? && 0 <= ls[i].percent.n <= 100 by {
      if t > 0 {
        forall i | 0 <= i < |cs| ensures ls[i].percent.Finite? && 0 <= ls[i].percent.n <= 100 {
          RoundPercentInRange(cs[i].value, t);
        }
      }
    }
    ls
  }

  /** The bar's segments, left to right: the same categories in the same order as the legend. */
  function BarSegments(cs: seq<Category>): (names: seq<string>)
    ensures |names| == |cs|
    ensures forall i :: 0 <= i < |cs| ==> names[i] == Legend(cs)[i].name
  {
    seq(|cs|, i requires 0 <= i < |cs| => cs[i].name)
  }

  /** The sample data adds up to 100 and shows 35, 25, 20, 15 and 5 percent. */
  lemma ExampleMockLegend()
    ensures Total(MockCategories) == 100
    ensures forall i :: 0 <= i < 5 ==> Legend(MockCategories)[i].percent == Finite(MockCategories[i].value)
  {
    var cs := MockCategories;
    assert cs[1..] == [cs[1], cs[2], cs[3], cs[4]];
    assert cs[1..][1..] == [cs[2], cs[3], cs[4]];
    assert cs[1..][1..][1..] == [cs[3], cs[4]];
    assert cs[1..][1..][1..][1..] == [cs[4]];
    assert Total(cs) == 100;
    forall i | 0 <= i < 5 ensures Legend(cs)[i].percent == Finite(cs[i].value) {
      RoundPercentUnique(cs[i].value, 100, cs[i].value);
    }
  }
}

=== FILE: content_list.dfy ===
/** The list of post cards on the content page: relative ages and status colours. */
module ContentList {
  import opened Wrappers
  import opened Records
  import opened Text

  /** The bucket `getTimeAgo` picks, with the count it displays. */
  datatype Ago = SecondsAgo(n: int) | MinutesAgo(n: int) | HoursAgo(n: int) | DaysAgo(n: int)

  /**
   * `getTimeAgo`, given `now - createdAt` in milliseconds. Every step is a floor division,
   * and a post from the future (negative elapsed time) lands in the seconds bucket.
   */
  function TimeAgo(elapsedMs: int): (r: Ago)
    ensures r.SecondsAgo? <==> elapsedMs < 60_000
    ensures r.MinutesAgo? <==> 60_000 <= elapsedMs < 3_600_000
    ensures r.HoursAgo? <==> 3_600_000 <= elapsedMs < 86_400_000
    ensures r.DaysAgo? <==> 86_400_000 <= elapsedMs
    ensures r.SecondsAgo? ==> r.n < 60 && r.n * 1000 <= elapsedMs < (r.n + 1) * 1000
    ensures r.MinutesAgo? ==> 1 <= r.n < 60 && r.n * 60_000 <= elapsedMs < (r.n + 1) * 60_000
    ensures r.HoursAgo? ==> 1 <= r.n < 24 && r.n * 3_600_000 <= elapsedMs < (r.n + 1) * 3_600_000
    ensures r.DaysAgo? ==> 1 <= r.n && r.n * 86_400_000 <= elapsedMs < (r.n + 1) * 86_400_000
  {
    // Dafny's `/` by a positive divisor is floor division, like `Math.floor(x / d)`.
    var seconds := elapsedMs / 1000;
    if seconds < 60 then SecondsAgo(seconds)
    else
      var minutes := seconds / 60;
      if minutes < 60 then MinutesAgo(minutes)
      else
        var hours := minutes / 60;
        if hours < 24 then HoursAgo(hours)
        else DaysAgo(hours / 24)
  }

  /** The words after the number: the unit and 'ago'. */
  function AgoUnit(a: Ago): (u: string)
    ensures 4 <= |u| && u[|u| - 4..] == " ago"
  {
    match a
    case SecondsAgo(_) => " seconds ago"
    case MinutesAgo(_) => " minutes ago"
    case HoursAgo(_) => " hours ago"
    case DaysAgo(_) => " days ago"
  }

  /** The text under a post's title: `${n} seconds ago` and so on. */
  function AgoText(a: Ago): (t: string)
    ensures |IntToString(a.n)| < |t| && t[..|IntToString(a.n)|] == IntToString(a.n)
    ensures a.n >= 0 ==> DecimalValue(t[..|IntToString(a.n)|]) == a.n
    ensures a.SecondsAgo? ==> t[|IntToString(a.n)|..] == " seconds ago"
    ensures a.MinutesAgo? ==> t[|IntToString(a.n)|..] == " minutes ago"
    ensures a.HoursAgo? ==> t[|IntToString(a.n)|..] == " hours ago"
    ensures a.DaysAgo? ==> t[|IntToString(a.n)|..] == " days ago"
  {
    IntToStringRoundTrip(a.n);
    var digits, unit := IntToString(a.n), AgoUnit(a);
    var t := digits + unit;
    assert t[..|digits|] == digits && t[|digits|..] == unit;
    t
  }

  /** A post created two and a half minutes ago reads "2 minutes ago". */
  lemma ExampleTwoMinutes()
    ensures TimeAgo(150_000) == MinutesAgo(2) && AgoText(MinutesAgo(2)) == "2 minutes ago"
  {
  }

  /** The palette the status badge and the card border choose from. */
  datatype Tone = Green | Red | Blue | Amber

  /**
   * `getStatusColor`: approved, rejected and processing have their own style; every
   * other status, 'pending' included, falls to the amber default.
   */
  function StatusTone(status: string): (t: Tone)
    ensures t == Green <==> status == "approved"
    ensures t == Red <==> status == "rejected"
    ensures t == Blue <==> status == "processing"
    ensures t == Amber <==> status != "approved" && status != "rejected" && status != "processing"
  {
    match status
    case "approved" => Green
    case "rejected" => Red
    case "processing" => Blue
    case _ => Amber
  }

  /** The left border colour, written in the card as its own chain of comparisons. */
  function BorderTone(status: string): (t: Tone)
    ensures t == Green <==> status == "approved"
    ensures t == Red <==> status == "rejected"
    ensures t == Blue <==> status == "processing"
    ensures t == Amber <==> status != "approved" && status != "rejected" && status != "processing"
  {
    if status == "approved" then Green
    else if status == "rejected" then Red
    else if status == "processing" then Blue
    else Amber
  }

  /** The border and the badge never disagree. */
  lemma BorderAgreesWithBadge(status: string)
    ensures BorderTone(status) == StatusTone(status)
  {
  }

  /** One rendered card. */
  datatype Card = Card(
    id: string,
    title: string,
    author: string,
    ago: Ago,
    agoText: string,
    badge: Tone,
    border: Tone,
    worker: string,
    note: Option<string>)

  /** What the list renders: the empty-state message, or one card per post in order. */
  datatype ListView = EmptyState | Cards(cards: seq<Card>)

  /** `post.worker || 'Unassigned'` */
  function WorkerText(worker: Option<string>): (w: string)
    ensures w != ""
    ensures w == "Unassigned" <==> worker.None? || worker == Some("") || worker == Some("Unassigned")
    ensures worker.Some? && worker.value != "" ==> w == worker.value
  {
    match worker
    case Some(w) => if w == "" then "Unassigned" else w
    case None => "Unassigned"
  }

  /** `post.moderationDetails && ...`: the note shows only when the field is a non-empty string. */
  function NoteText(details: Option<string>): (n: Option<string>)
    ensures n.None? <==> details.None? || details == Some("")
    ensures n.Some? ==> details == n && n.value != ""
  {
    match details
    case Some(d) => if d == "" then None else Some(d)
    case None => None
  }

  function RenderCard(p: Post, now: int): Card {
    var ago := TimeAgo(now - p.createdAt);
    Card(p.id, p.title, p.author, ago, AgoText(ago), StatusTone(p.status),
         BorderTone(p.status), WorkerText(p.worker), NoteText(p.moderationDetails))
  }

  /** `ContentList` at clock reading `now`. */
  function Render(posts: seq<Post>, now: int): (v: ListView)
    ensures v.EmptyState? <==> |posts| == 0
    ensures v.Cards? ==> |v.cards| == |posts|
    ensures v.Cards? ==> forall i :: 0 <= i < |posts| ==>
              && v.cards[i].id == posts[i].id
              && v.cards[i].badge == v.cards[i].border == StatusTone(posts[i].status)
              && v.cards[i].ago == TimeAgo(now - posts[i].createdAt)
              && v.cards[i].agoText == AgoText(v.cards[i].ago)
              && v.cards[i].worker == WorkerText(posts[i].worker)
              && v.cards[i].note == NoteText(posts[i].moderationDetails)
  {
    if |posts| == 0 then EmptyState
    else Cards(seq(|posts|, i requires 0 <= i < |posts| => RenderCard(posts[i], now)))
  }
}

=== FILE: content_submission.dfy ===
/** The "Submit New Content" form: required-field validation and the POST it sends. */
module ContentSubmission {
  import opened Wrappers

  /**
   * The characters `String.prototype.trim` removes: white space (tab, vertical tab, form
   * feed, space, no-break space, byte order mark and the other space separators) and
   * line terminators.
   */
  predicate IsJsWhitespace(c: char) {
    || c == '\t' || c == '\U{000B}' || c == '\U{000C}' || c == ' ' || c == '\U{00A0}'
    || c == '\U{FEFF}' || c == '\U{1680}' || ('\U{2000}' <= c <= '\U{200A}') || c == '\U{202F}'
    || c == '\U{205F}' || c == '\U{3000}'
    || c == '\n' || c == '\r' || c == '\U{2028}' || c == '\U{2029}'
  }

  /**
   * What is left of s once its leading white space is removed. `trim` also removes the
   * trailing white space, which cannot turn a non-empty rest into an empty one.
   */
  function TrimStart(s: string): (r: string)
    ensures |r| <= |s| && r == s[|s| - |r|..]
    ensures r != [] ==> !IsJsWhitespace(r[0])
    ensures r == [] <==> forall i :: 0 <= i < |s| ==> IsJsWhitespace(s[i])
  {
    if s == [] then []
    else if IsJsWhitespace(s[0]) then
      assert forall i :: 1 <= i < |s| ==> s[i] == s[1..][i - 1];
      TrimStart(s[1..])
    else s
  }

  /** `!s.trim()`: nothing is left once the surrounding white space is trimmed. */
  function Blank(s: string): (b: bool)
    ensures b <==> TrimStart(s) == []
  {
    forall i :: 0 <= i < |s| ==> IsJsWhitespace(s[i])
  }

  const FillInError := "Please fill in all required fields"
  const SubmitError := "Failed to submit content. Please try again."
  const DefaultCategory := "general"

  /** The JSON body of `POST /api/posts`. */
  datatype SubmitRequest = SubmitRequest(
    title: string, content: string, author: string, category: string, server: string)

  /** The form is sent only when title, content and author all have something besides white space. */
  function CanSubmit(title: string, content: string, author: string): (b: bool)
    ensures b <==> TrimStart(title) != [] && TrimStart(content) != [] && TrimStart(author) != []
  {
    !Blank(title) && !Blank(content) && !Blank(author)
  }

  /** A field of spaces, tabs and newlines is as good as empty; one visible character is enough. */
  lemma WhitespaceOnlyIsBlank()
    ensures Blank("") && Blank(" \t\n") && !Blank(" a ")
  {
    assert !IsJsWhitespace(" a "[1]);
  }

  class SubmissionForm {
    var title: string
    var content: string
    var author: string
    var category: string
    var isSubmitting: bool
    var error: Option<string>
    /** How many times `onSuccess` has been called. */
    var successCalls: nat

    constructor ()
      ensures title == "" && content == "" && author == "" && category == DefaultCategory
      ensures !isSubmitting && error == None && successCalls == 0
    {
      title, content, author, category := "", "", "", DefaultCategory;
      isSubmitting, error, successCalls := false, None, 0;
    }

    /** The inputs' `onChange` handlers. */
    method Edit(newTitle: string, newContent: string, newAuthor: string, newCategory: string)
      modifies this
      ensures title == newTitle && content == newContent && author == newAuthor && category == newCategory
      ensures isSubmitting == old(isSubmitting) && error == old(error) && successCalls == old(successCalls)
    {
      title, content, author, category := newTitle, newContent, newAuthor, newCategory;
    }

    /**
     * `handleSubmit` up to its `await`: a form with a blank required field gets the
     * fill-in error and sends nothing; otherwise the error is cleared, the form turns
     * busy and the request carries the fields untrimmed, for 'server1'.
     */
    method BeginSubmit() returns (request: Option<SubmitRequest>)
      modifies this
      ensures title == old(title) && content == old(content) && author == old(author)
      ensures category == old(category) && successCalls == old(successCalls)
      ensures request.Some? <==> CanSubmit(title, content, author)
      ensures request.None? ==> error == Some(FillInError) && isSubmitting == old(isSubmitting)
      ensures request.Some? ==>
                && request.value == SubmitRequest(title, content, author, category, "server1")
                && error == None && isSubmitting
    {
      var ok := CanSubmit(title, content, author);
      if !ok {
        error := Some(FillInError);
        return None;
      }
      error := None;
      isSubmitting := true;
      request := Some(SubmitRequest(title, content, author, category, "server1"));
    }

    /**
     * `handleSubmit` after its `await`: a response with `ok` set resets the form and calls
     * `onSuccess` once; a failed or non-ok response keeps the fields and shows the submit
     * error. Either way the form stops being busy.
     */
    method CompleteSubmit(responseOk: bool)
      modifies this
      ensures !isSubmitting
      ensures responseOk ==>
                && title == "" && content == "" && author == "" && category == DefaultCategory
                && successCalls == old(successCalls) + 1 && error == old(error)
      ensures !responseOk ==>
                && title == old(title) && content == old(content) && author == old(author)
                && category == old(category)
                && successCalls == old(successCalls) && error == Some(SubmitError)
    {
      if responseOk {
        title, content, author, category := "", "", "", DefaultCategory;
        successCalls := successCalls + 1;
      } else {
        error := Some(SubmitError);
      }
      isSubmitting := false;
    }

    /**
     * One whole `handleSubmit`; `responseOk` is false for a network failure as well as
     * for a non-ok status, and is only consulted when a request was sent.
     */
    method HandleSubmit(responseOk: bool) returns (request: Option<SubmitRequest>)
      modifies this
      ensures request.Some? <==> CanSubmit(old(title), old(content), old(author))
      ensures request.None? ==>
                && error == Some(FillInError) && isSubmitting == old(isSubmitting)
                && title == old(title) && content == old(content) && author == old(author)
                && category == old(category) && successCalls == old(successCalls)
      ensures request.Some? ==>
                && request.value == SubmitRequest(old(title), old(content), old(author), old(category), "server1")
                && !isSubmitting
      ensures request.Some? && responseOk ==>
                && title == "" && content == "" && author == "" && category == DefaultCategory
                && error == None && successCalls == old(successCalls) + 1
      ensures request.Some? && !responseOk ==>
                && title == old(title) && content == old(content) && author == old(author)
                && category == old(category)
                && error == Some(SubmitError) && successCalls == old(successCalls)
    {
      request := BeginSubmit();
      if request.Some? {
        CompleteSubmit(responseOk);
      }
    }
  }
}

=== FILE: dashboard_page.dfy ===
/**
 * The dashboard page: one refresh reads the posts endpoint, then the status endpoint,
 * and updates the counters, the server panel and the recent-content panel together.
 */
module DashboardPage {
  import opened Wrappers
  import opened Http
  import opened Records
  import opened Notifications
  import opened ServerStatus

  /** The counters the page starts from and falls back to when a body has none. */
  const DefaultStats := Stats(0, 0, 0, 0, Some(0), None)

  const DashboardErrorDraft :=
    Draft(Error, "Dashboard Error", Some("Failed to load dashboard data. Please check server connection."), None)

  const RecentCount: nat := 5

  /** `Array.isArray(posts) ? posts.slice(0, 5) : []` */
  function RecentPosts(f: PostsField): (r: seq<Post>)
    ensures f.PostArray? ==> |r| == if |f.items| < RecentCount then |f.items| else RecentCount
    ensures f.PostArray? ==> r == f.items[..|r|]
    ensures !f.PostArray? ==> r == []
  {
    if f.PostArray? then
      (if |f.items| < RecentCount then f.items else f.items[..RecentCount])
    else []
  }

  /** What the page renders: the spinner, or the panels fed from the page's state. */
  datatype DashboardView = Spinner | Panels(stats: Stats, recent: seq<Post>, servers: seq<ServerEntry>)

  class Dashboard {
    var isLoading: bool
    var stats: Stats
    var serverStatus: seq<ServerEntry>
    var recentPosts: seq<Post>
    const notifier: NotificationProvider

    constructor (notifier: NotificationProvider)
      ensures this.notifier == notifier
      ensures isLoading && stats == DefaultStats && serverStatus == [] && recentPosts == []
    {
      this.notifier := notifier;
      isLoading, stats, serverStatus, recentPosts := true, DefaultStats, [], [];
    }

    /** `fetchDashboardData` up to its first `await`. */
    method BeginFetch()
      modifies this
      ensures isLoading
      ensures stats == old(stats) && serverStatus == old(serverStatus) && recentPosts == old(recentPosts)
    {
      isLoading := true;
    }

    /**
     * `fetchDashboardData` after its awaits. The status endpoint is asked only once the
     * posts reply is usable. Only when both replies are usable do the counters, the server
     * panel and the recent posts change, all three together; otherwise none of them does
     * and one 'Dashboard Error' notification is raised under the given id.
     */
    method CompleteFetch(postsReply: Reply<PostsBody>, statusReply: Reply<seq<ServerEntry>>, id: string)
      returns (statusRequested: bool)
      modifies this, notifier
      ensures !isLoading
      ensures statusRequested <==> CheckedBody(postsReply).Some?
      ensures CheckedBody(postsReply).Some? && CheckedBody(statusReply).Some? ==>
                && stats == CheckedBody(postsReply).value.stats.GetOr(DefaultStats)
                && serverStatus == CheckedBody(statusReply).value
                && recentPosts == RecentPosts(CheckedBody(postsReply).value.posts)
                && notifier.state == old(notifier.state)
      ensures CheckedBody(postsReply).None? || CheckedBody(statusReply).None? ==>
                && stats == old(stats) && serverStatus == old(serverStatus)
                && recentPosts == old(recentPosts)
                && notifier.state.notifications
                   == old(notifier.state.notifications) + [WithId(DashboardErrorDraft, id)]
    {
      statusRequested := false;
      var postsData := CheckedBody(postsReply);
      if postsData.Some? {
        statusRequested := true;
        var statusData := CheckedBody(statusReply);
        if statusData.Some? {
          stats := postsData.value.stats.GetOr(DefaultStats);
          serverStatus := statusData.value;
          recentPosts := RecentPosts(postsData.value.posts);
        } else {
          notifier.AddNotification(DashboardErrorDraft, id);
        }
      } else {
        notifier.AddNotification(DashboardErrorDraft, id);
      }
      isLoading := false;
    }

    /**
     * One whole refresh. The effect runs it on mount and whenever the provider's
     * `addNotification` changes, and the interval runs it every 10 seconds.
     */
    method FetchDashboardData(postsReply: Reply<PostsBody>, statusReply: Reply<seq<ServerEntry>>, id: string)
      returns (statusRequested: bool)
      modifies this, notifier
      ensures !isLoading
      ensures statusRequested <==> CheckedBody(postsReply).Some?
      ensures CheckedBody(postsReply).Some? && CheckedBody(statusReply).Some? ==>
                && stats == CheckedBody(postsReply).value.stats.GetOr(DefaultStats)
                && serverStatus == CheckedBody(statusReply).value
                && recentPosts == RecentPosts(CheckedBody(postsReply).value.posts)
                && |recentPosts| <= RecentCount
                && notifier.state == old(notifier.state)
      ensures CheckedBody(postsReply).None? || CheckedBody(statusReply).None? ==>
                && stats == old(stats) && serverStatus == old(serverStatus)
                && recentPosts == old(recentPosts)
                && notifier.state.notifications
                   == old(notifier.state.notifications) + [WithId(DashboardErrorDraft, id)]
    {
      BeginFetch();
      statusRequested := CompleteFetch(postsReply, statusReply, id);
    }

    /** While loading only the spinner renders. */
    function View(): (v: DashboardView)
      reads this
      ensures v.Spinner? <==> isLoading
      ensures v.Panels? ==> v.stats == stats && v.recent == recentPosts && v.servers == serverStatus
    {
      if isLoading then Spinner else Panels(stats, recentPosts, serverStatus)
    }
  }
}

=== FILE: fetch_triggers.dfy ===
/**
 * When the content page and the dashboard fetch. Both pages list the provider's
 * `addNotification` among their effect's dependencies, and the provider builds a new
 * `addNotification` closure on every render, that is after every change of the
 * notification list. A failed fetch adds a notification, so while the backend is down
 * each failure starts the next fetch.
 */
module FetchTriggers {

  /** What can happen to a mounted page. */
  datatype Event = Mount | Tick | FilterChanged | NotificationsChanged

  /**
   * The events that start a fetch as the pages are written: the effect re-runs on mount,
   * on a new filter and on a new `addNotification` (any change of the list), and the
   * interval fetches on each tick.
   */
  predicate FetchesAsWritten(e: Event) {
    match e
    case Mount => true
    case Tick => true
    case FilterChanged => true
    case NotificationsChanged => true
  }

  /** With `addNotification` kept stable across renders, a change of the list starts no fetch. */
  predicate FetchesIntended(e: Event) {
    !e.NotificationsChanged?
  }

  /**
   * How many fetches the first `steps` events start while every fetch fails. The events
   * are handled in order; each fetch that fails adds one notification, which is one more
   * `NotificationsChanged` event at the back of the queue.
   */
  function FetchesDuringOutage(fetches: Event -> bool, pending: seq<Event>, steps: nat): (n: nat)
    ensures n <= steps
    ensures pending == [] ==> n == 0
    decreases steps
  {
    if steps == 0 || pending == [] then 0
    else if fetches(pending[0]) then
      1 + FetchesDuringOutage(fetches, pending[1..] + [NotificationsChanged], steps - 1)
    else FetchesDuringOutage(fetches, pending[1..], steps - 1)
  }

  /** As written, every event handled during an outage is another failing fetch: it never settles. */
  lemma {:induction false} OutageNeverSettles(pending: seq<Event>, steps: nat)
    requires pending != []
    ensures FetchesDuringOutage(FetchesAsWritten, pending, steps) == steps
    decreases steps
  {
    if steps > 0 {
      OutageNeverSettles(pending[1..] + [NotificationsChanged], steps - 1);
    }
  }

  /** Mounting the page while the backend is down: as many fetches as events handled, however many. */
  lemma OutageAfterMountAsWritten(steps: nat)
    ensures FetchesDuringOutage(FetchesAsWritten, [Mount], steps) == steps
  {
    OutageNeverSettles([Mount], steps);
  }

  /**
   * With a stable `addNotification`, the error notification of a failed fetch starts
   * nothing: a queue of notification changes is handled without any fetch.
   */
  lemma {:induction false} NotificationChangesStartNoFetch(pending: seq<Event>, steps: nat)
    requires forall i :: 0 <= i < |pending| ==> pending[i].NotificationsChanged?
    ensures FetchesDuringOutage(FetchesIntended, pending, steps) == 0
  {
    if steps > 0 && pending != [] {
      NotificationChangesStartNoFetch(pending[1..], steps - 1);
    }
  }

  /** Mounting the page while the backend is down, with a stable `addNotification`: one fetch, then quiet until the next tick. */
  lemma OutageAfterMountIntended(steps: nat)
    requires steps >= 1
    ensures FetchesDuringOutage(FetchesIntended, [Mount], steps) == 1
  {
    assert [Mount][1..] + [NotificationsChanged] == [NotificationsChanged];
    NotificationChangesStartNoFetch([NotificationsChanged], steps - 1);
  }
}

=== FILE: http.dfy ===
/**
 * What an awaited `fetch` hands back to a page, with the network abstracted away.
 * A reply either never arrives (`NetworkError`: the promise rejects) or carries the
 * `response.ok` flag and the outcome of `response.json()`.
 */
module Http {
  import opened Wrappers

  /** The outcome of `await response.json()`: a decoded body, or a rejected promise. */
  datatype Parsed<+T> = Json(value: T) | Malformed

  datatype Reply<+T> = Reply(ok: bool, body: Parsed<T>) | NetworkError

  /**
   * The body a page that first checks `response.ok` gets to use:
   * `if (!response.ok) throw ...; const data = await response.json();`
   */
  function CheckedBody<T>(r: Reply<T>): (o: Option<T>)
    ensures o.Some? <==> r.Reply? && r.ok && r.body.Json?
    ensures o.Some? ==> o.value == r.body.value
  {
    match r
    case Reply(true, Json(v)) => Some(v)
    case _ => None
  }

  /** The body a page that never looks at the status gets to use: `await response.json()` alone. */
  function UncheckedBody<T>(r: Reply<T>): (o: Option<T>)
    ensures o.Some? <==> r.Reply? && r.body.Json?
    ensures o.Some? ==> o.value == r.body.value
  {
    match r
    case Reply(_, Json(v)) => Some(v)
    case _ => None
  }

  /** Skipping the status check can only turn failures into successes, never the reverse. */
  lemma CheckedBodyIsUncheckedBody<T>(r: Reply<T>)
    ensures CheckedBody(r).Some? ==> UncheckedBody(r) == CheckedBody(r)
    ensures UncheckedBody(r).Some? && CheckedBody(r).None? <==> r.Reply? && !r.ok && r.body.Json?
  {
  }
}

=== FILE: login_page.dfy ===
/** The sign-in page: validation, the call to the session's login, and the redirect. */
module LoginPage {
  import opened Wrappers
  import opened Auth

  const MissingFieldsError := "Please enter both email and password"
  const DashboardPath := "/dashboard"

  datatype LoginView = Spinner | Form(error: Option<string>)

  class Login {
    var email: string
    var password: string
    var error: Option<string>
    /** Where the page has navigated to, if anywhere. */
    var location: Option<string>
    const auth: AuthProvider

    constructor (auth: AuthProvider)
      ensures this.auth == auth
      ensures email == "" && password == "" && error == None && location == None
    {
      this.auth := auth;
      email, password, error, location := "", "", None, None;
    }

    /** The inputs' `onChange` handlers. */
    method Edit(newEmail: string, newPassword: string)
      modifies this
      ensures email == newEmail && password == newPassword
      ensures error == old(error) && location == old(location)
    {
      email, password := newEmail, newPassword;
    }

    /** The redirect effect: an authenticated visitor is sent to the dashboard. */
    method RedirectIfAuthenticated()
      modifies this
      ensures auth.IsAuthenticated() ==> location == Some(DashboardPath)
      ensures !auth.IsAuthenticated() ==> location == old(location)
      ensures email == old(email) && password == old(password) && error == old(error)
    {
      if auth.IsAuthenticated() {
        location := Some(DashboardPath);
      }
    }

    /**
     * `handleSubmit`. An empty email or password (white space counts as filled in) shows
     * the missing-fields error and leaves the session alone; otherwise the session's
     * `login` signs the user in and the page navigates to the dashboard. That `login`
     * never rejects, so the 'Invalid email or password' branch is never taken.
     */
    method HandleSubmit()
      modifies this, auth
      ensures email == old(email) && password == old(password)
      ensures old(email) == "" || old(password) == "" ==>
                && error == Some(MissingFieldsError) && location == old(location)
                && auth.user == old(auth.user) && auth.storage == old(auth.storage)
                && auth.isLoading == old(auth.isLoading)
      ensures old(email) != "" && old(password) != "" ==>
                && location == Some(DashboardPath) && error == old(error)
                && auth.IsAuthenticated() && auth.user == Some(LoginUser(old(email)))
                && !auth.isLoading
                && auth.storage == old(auth.storage)[UserKey := Serialize(LoginUser(old(email)))]
    {
      if email == "" || password == "" {
        error := Some(MissingFieldsError);
        return;
      }
      auth.Login(email, password);
      location := Some(DashboardPath);
    }

    /** While the session is loading only the spinner renders. */
    function View(): (v: LoginView)
      reads this, auth
      ensures v.Spinner? <==> auth.isLoading
      ensures v.Form? ==> v.error == error
    {
      if auth.isLoading then Spinner else Form(error)
    }
  }
}

=== FILE: moderator_performance.dfy ===
/** The Moderator Performance table: one row per moderator with a rounded, colour-banded rate. */
module ModeratorPerformance {
  import opened Rounding

  /** A moderator's counts; the average time (a float) is not part of this model. */
  datatype Moderator = Moderator(id: nat, name: string, processed: nat, approved: nat, rejected: nat)

  const MockModerators := [
    Moderator(1, "Worker1", 124, 98, 26),
    Moderator(2, "Worker2", 186, 135, 51),
    Moderator(3, "Worker3", 97, 82, 15),
    Moderator(4, "Worker4", 145, 112, 33)
  ]

  /** `Math.round((approved / processed) * 100)`, with no guard against zero processed. */
  function ApprovalRate(m: Moderator): (r: JsNumber)
    ensures m.processed > 0 ==> r.Finite? && r.n == RoundPercent(m.approved, m.processed)
    ensures m.processed > 0 && m.approved <= m.processed ==> 0 <= r.n <= 100
    ensures m.processed == 0 ==> !r.Finite?
  {
    if m.processed > 0 && m.approved <= m.processed then
      RoundPercentInRange(m.approved, m.processed);
      JsPercent(m.approved, m.processed)
    else JsPercent(m.approved, m.processed)
  }

  datatype Band = GreenBand | BlueBand | AmberBand

  /** The bar colour: above 80 green, above 60 blue, anything else (NaN included) amber. */
  function RateBand(rate: JsNumber): (b: Band)
    ensures b == GreenBand <==> GreaterThan(rate, 80)
    ensures b == BlueBand <==> GreaterThan(rate, 60) && !GreaterThan(rate, 80)
    ensures b == AmberBand <==> !GreaterThan(rate, 60)
  {
    if GreaterThan(rate, 80) then GreenBand
    else if GreaterThan(rate, 60) then BlueBand
    else AmberBand
  }

  /** For a finite rate the bands split the scale at 60 and 80, and a better rate never gets a worse band. */
  lemma {:induction false} RateBandOrdered(r1: int, r2: int)
    requires r1 <= r2
    ensures RateBand(Finite(r1)) == GreenBand ==> RateBand(Finite(r2)) == GreenBand
    ensures RateBand(Finite(r2)) == AmberBand ==> RateBand(Finite(r1)) == AmberBand
    ensures RateBand(Finite(r1)) == BlueBand ==> 60 < r1 <= 80
  {
  }

  /** A moderator approving at least as large a share is banded at least as well. */
  lemma ApprovingMoreNeverBandsWorse(m1: Moderator, m2: Moderator)
    requires m1.processed == m2.processed > 0 && m1.approved <= m2.approved
    ensures RateBand(ApprovalRate(m1)) == GreenBand ==> RateBand(ApprovalRate(m2)) == GreenBand
    ensures RateBand(ApprovalRate(m2)) == AmberBand ==> RateBand(ApprovalRate(m1)) == AmberBand
  {
    RoundPercentMonotone(m1.approved, m2.approved, m1.processed);
  }

  datatype Row = Row(name: string, processed: nat, approved: nat, rejected: nat, rate: JsNumber, band: Band)

  /** `moderators.map(...)`: one row per moderator, in input order. */
  function Rows(ms: seq<Moderator>): (rows: seq<Row>)
    ensures |rows| == |ms|
    ensures forall i :: 0 <= i < |ms| ==>
              && rows[i].name == ms[i].name
              && rows[i].rate == ApprovalRate(ms[i])
              && rows[i].band == RateBand(rows[i].rate)
  {
    seq(|ms|, i requires 0 <= i < |ms| =>
      Row(ms[i].name, ms[i].processed, ms[i].approved, ms[i].rejected,
          ApprovalRate(ms[i]), RateBand(ApprovalRate(ms[i]))))
  }

  /** Worker1 (98 of 124) shows 79% in blue; Worker3 (82 of 97) shows 85% in green. */
  lemma ExampleMockRows()
    ensures ApprovalRate(MockModerators[0]) == Finite(79) && RateBand(Finite(79)) == BlueBand
    ensures ApprovalRate(MockModerators[2]) == Finite(85) && RateBand(Finite(85)) == GreenBand
  {
    RoundPercentUnique(98, 124, 79);
    RoundPercentUnique(82, 97, 85);
  }
}

=== FILE: notifications.dfy ===
/**
 * The toast-notification list shared by every page: a reducer over a list of
 * notifications, and the provider object whose `addNotification` / `removeNotification`
 * dispatch into it. The random id `addNotification` generates is a parameter here.
 */
module Notifications {
  import opened Wrappers

  datatype NotificationType = Success | Error | Warning | Info

  datatype Notification = Notification(
    id: string,
    kind: NotificationType,
    title: string,
    message: Option<string>,
    persist: Option<bool>)

  /** What callers hand to `addNotification`: a notification without its id. */
  datatype Draft = Draft(
    kind: NotificationType,
    title: string,
    message: Option<string>,
    persist: Option<bool>)

  /** `{ id, ...notification }` */
  function WithId(d: Draft, id: string): (n: Notification)
    ensures n.id == id
    ensures Draft(n.kind, n.title, n.message, n.persist) == d
  {
    Notification(id, d.kind, d.title, d.message, d.persist)
  }

  datatype NotificationState = NotificationState(notifications: seq<Notification>)

  /** The reducer's actions; `Other` stands for any action type the reducer does not know. */
  datatype Action = Add(payload: Notification) | Remove(id: string) | Other(tag: string)

  /** `notifications.filter(n => n.id !== id)` */
  function WithoutId(s: seq<Notification>, id: string): (r: seq<Notification>)
    ensures |r| <= |s|
    ensures forall n :: n in r <==> n in s && n.id != id
  {
    if s == [] then []
    else
      var rest := WithoutId(s[1..], id);
      assert forall n :: n in s <==> n == s[0] || n in s[1..];
      (if s[0].id == id then [] else [s[0]]) + rest
  }

  /** The notification reducer. */
  function Reduce(state: NotificationState, action: Action): (r: NotificationState)
    ensures action.Add? ==>
              && |r.notifications| == |state.notifications| + 1
              && r.notifications[..|state.notifications|] == state.notifications
              && r.notifications[|state.notifications|] == action.payload
    ensures action.Remove? ==>
              forall n :: n in r.notifications <==> n in state.notifications && n.id != action.id
    ensures action.Other? ==> r == state
  {
    match action
    case Add(n) => state.(notifications := state.notifications + [n])
    case Remove(id) => state.(notifications := WithoutId(state.notifications, id))
    case Other(_) => state
  }

  /** Filtering distributes over concatenation, so the kept entries keep their relative order. */
  lemma {:induction false} WithoutIdAppend(a: seq<Notification>, b: seq<Notification>, id: string)
    ensures WithoutId(a + b, id) == WithoutId(a, id) + WithoutId(b, id)
  {
    if a == [] {
      assert a + b == b;
    } else {
      assert (a + b)[0] == a[0];
      assert (a + b)[1..] == a[1..] + b;
      WithoutIdAppend(a[1..], b, id);
    }
  }

  /** Removing an id no entry carries leaves the list exactly as it was. */
  lemma {:induction false} WithoutAbsentId(s: seq<Notification>, id: string)
    requires forall i :: 0 <= i < |s| ==> s[i].id != id
    ensures WithoutId(s, id) == s
  {
    if s != [] {
      WithoutAbsentId(s[1..], id);
    }
  }

  /** After a removal no entry carries the removed id, however many carried it before. */
  lemma {:induction false} WithoutIdLeavesNone(s: seq<Notification>, id: string)
    ensures forall i :: 0 <= i < |WithoutId(s, id)| ==> WithoutId(s, id)[i].id != id
  {
    var r := WithoutId(s, id);
    forall i | 0 <= i < |r| ensures r[i].id != id {
      assert r[i] in r;
    }
  }

  /** Removing the same id twice is the same as removing it once. */
  lemma WithoutIdIdempotent(s: seq<Notification>, id: string)
    ensures WithoutId(WithoutId(s, id), id) == WithoutId(s, id)
  {
    WithoutIdLeavesNone(s, id);
    WithoutAbsentId(WithoutId(s, id), id);
  }

  /** Adding a notification with a fresh id and then removing that id restores the list. */
  lemma AddThenRemove(state: NotificationState, n: Notification)
    requires forall i :: 0 <= i < |state.notifications| ==> state.notifications[i].id != n.id
    ensures Reduce(Reduce(state, Add(n)), Remove(n.id)) == state
  {
    WithoutIdAppend(state.notifications, [n], n.id);
    WithoutAbsentId(state.notifications, n.id);
    assert WithoutId([n], n.id) == [];
  }

  /** The notification provider: the list `useReducer` holds and the two dispatching callbacks. */
  class NotificationProvider {
    var state: NotificationState

    /** `useReducer(notificationReducer, { notifications: [] })` */
    constructor ()
      ensures state.notifications == []
    {
      state := NotificationState([]);
    }

    /** Dispatches an ADD of the draft under `id`; there is no duplicate check. */
    method AddNotification(draft: Draft, id: string)
      modifies this
      ensures state == Reduce(old(state), Add(WithId(draft, id)))
      ensures state.notifications == old(state.notifications) + [WithId(draft, id)]
    {
      state := Reduce(state, Add(WithId(draft, id)));
    }

    /** Dispatches a REMOVE of every notification carrying `id`. */
    method RemoveNotification(id: string)
      modifies this
      ensures state == Reduce(old(state), Remove(id))
      ensures state.notifications == WithoutId(old(state.notifications), id)
    {
      state := Reduce(state, Remove(id));
    }
  }
}

=== FILE: posts_page.dfy ===
/**
 * The content-management page: the list of posts fetched for the current filter,
 * sorted newest first and shown ten to a page, with the counters that come with it.
 */
module PostsPage {
  import opened Wrappers
  import opened Http
  import opened Records
  import opened Notifications

  const PostsPerPage: nat := 10

  // ---------------------------------------------------------------- sorting

  /** Every post is at least as recent as every post after it. */
  predicate NewestFirst(s: seq<Post>) {
    forall i, j :: 0 <= i < j < |s| ==> s[i].createdAt >= s[j].createdAt
  }

  /** A post at least as recent as the head of a sorted list can go in front of it. */
  lemma PrependNewest(x: Post, s: seq<Post>)
    requires NewestFirst(s)
    requires s != [] ==> x.createdAt >= s[0].createdAt
    ensures NewestFirst([x] + s)
  {
  }

  /** Places p before the first post that is not newer than it. */
  function Insert(p: Post, s: seq<Post>): (r: seq<Post>)
    requires NewestFirst(s)
    ensures NewestFirst(r)
    ensures multiset(r) == multiset(s) + multiset{p}
    ensures |r| == |s| + 1 && (r[0] == p || (s != [] && r[0] == s[0]))
  {
    if s == [] then [p]
    else if s[0].createdAt <= p.createdAt then
      PrependNewest(p, s);
      [p] + s
    else
      assert NewestFirst(s[1..]) by {
        forall i, j | 0 <= i < j < |s| - 1 ensures s[1..][i].createdAt >= s[1..][j].createdAt {
          assert s[1..][i] == s[i + 1] && s[1..][j] == s[j + 1];
        }
      }
      var rest := Insert(p, s[1..]);
      assert s == [s[0]] + s[1..];
      PrependNewest(s[0], rest);
      [s[0]] + rest
  }

  /**
   * `posts.sort((a, b) => b.createdAt - a.createdAt)`. JavaScript's sort is stable, and so
   * is this insertion sort: posts with equal timestamps keep their response order.
   */
  function SortNewestFirst(s: seq<Post>): (r: seq<Post>)
    ensures NewestFirst(r)
    ensures multiset(r) == multiset(s)
  {
    if s == [] then []
    else
      assert s == [s[0]] + s[1..];
      Insert(s[0], SortNewestFirst(s[1..]))
  }

  // ---------------------------------------------------------------- pagination

  /** `Math.ceil(n / postsPerPage)`: the fewest pages of ten that hold n posts. */
  function TotalPages(n: nat): (r: nat)
    ensures r * PostsPerPage >= n
    ensures r > 0 ==> (r - 1) * PostsPerPage < n
  {
    (n + PostsPerPage - 1) / PostsPerPage
  }

  /** A position given to `Array.prototype.slice`: a negative one counts back from the end. */
  function ClampIndex(i: int, len: nat): (k: nat)
    ensures k <= len
    ensures 0 <= i <= len ==> k == i
  {
    if i < 0 then (if len + i < 0 then 0 else len + i)
    else if i > len then len
    else i
  }

  /** `s.slice(start, end)` */
  function JsSlice<T>(s: seq<T>, start: int, end: int): (r: seq<T>)
    ensures |r| <= |s|
    ensures 0 <= start <= end <= |s| ==> r == s[start..end]
    ensures 0 <= end <= start ==> r == []
    ensures -|s| <= start <= end < 0 ==> r == s[|s| + start..|s| + end]
    ensures start == 0 && |s| <= end ==> r == s
  {
    var a, b := ClampIndex(start, |s|), ClampIndex(end, |s|);
    assert s[0..|s|] == s;
    if a < b then s[a..b] else []
  }

  function Min(a: int, b: int): int { if a <= b then a else b }
  function Max(a: int, b: int): int { if a <= b then b else a }

  /**
   * `getCurrentPosts`: the slice of the sorted posts shown on `currentPage`. A page below 1
   * is not rejected: page 0 shows nothing, and a negative page makes both slice positions
   * count back from the end of the list.
   */
  function CurrentPosts(posts: seq<Post>, currentPage: int): (r: seq<Post>)
    ensures currentPage >= 1 ==>
              |r| == Min(PostsPerPage, Max(0, |posts| - (currentPage - 1) * PostsPerPage))
    ensures currentPage >= 1 ==>
              forall i :: 0 <= i < |r| ==> r[i] == posts[(currentPage - 1) * PostsPerPage + i]
    ensures currentPage == 0 ==> r == []
    ensures currentPage < 0 ==>
              r == posts[Max(0, |posts| + (currentPage - 1) * PostsPerPage)..Max(0, |posts| + currentPage * PostsPerPage)]
  {
    var indexOfLastPost := currentPage * PostsPerPage;
    var indexOfFirstPost := indexOfLastPost - PostsPerPage;
    JsSlice(posts, indexOfFirstPost, indexOfLastPost)
  }

  /** Pages 1 to k shown one after the other. */
  function PagesUpTo(posts: seq<Post>, k: nat): seq<Post> {
    if k == 0 then [] else PagesUpTo(posts, k - 1) + CurrentPosts(posts, k)
  }

  /** The first k pages are the first 10k posts. */
  lemma {:induction false} PagesUpToIsPrefix(posts: seq<Post>, k: nat)
    ensures PagesUpTo(posts, k) == posts[..Min(k * PostsPerPage, |posts|)]
  {
    if k > 0 {
      PagesUpToIsPrefix(posts, k - 1);
      var lo, hi := Min((k - 1) * PostsPerPage, |posts|), Min(k * PostsPerPage, |posts|);
      var page := CurrentPosts(posts, k);
      assert page == posts[lo..hi];
      assert posts[..lo] + posts[lo..hi] == posts[..hi];
    }
  }

  /** Reading pages 1 to totalPages in order shows every post exactly once, in order. */
  lemma AllPagesShowAllPosts(posts: seq<Post>)
    ensures PagesUpTo(posts, TotalPages(|posts|)) == posts
  {
    PagesUpToIsPrefix(posts, TotalPages(|posts|));
    assert posts[..|posts|] == posts;
  }

  /** The pagination control appears only when there is more than one page of posts. */
  function ShowsPagination(posts: seq<Post>): (b: bool)
    ensures b <==> TotalPages(|posts|) >= 2
    ensures !b ==> CurrentPosts(posts, 1) == posts
  {
    |posts| > PostsPerPage
  }

  // ---------------------------------------------------------------- page state

  /** The counters the page starts from and falls back to when a body has none. */
  const DefaultStats := Stats(0, 0, 0, 0, None, Some(0))

  const LoadErrorDraft :=
    Draft(Error, "Error", Some("Failed to load content. Please try again later."), None)

  const SubmittedDraft :=
    Draft(Success, "Content Submitted", Some("Your content has been submitted for moderation."), None)

  /**
   * Why `fetchPosts` ran: the effect's first run for the current filter (on mount or after
   * `setFilter`), or one of the 10-second interval's refreshes.
   */
  datatype FetchCause = FilterRun | IntervalRun

  /** What the page renders below its header. */
  datatype PostsView = Spinner | Listing(shown: seq<Post>, pagination: bool)

  class PostsPage {
    var posts: seq<Post>
    var isLoading: bool
    var submitForm: bool
    var filter: string
    var stats: Stats
    var currentPage: int
    const notifier: NotificationProvider

    constructor (notifier: NotificationProvider)
      ensures this.notifier == notifier
      ensures posts == [] && isLoading && !submitForm && filter == "all"
      ensures stats == DefaultStats && currentPage == 1
    {
      this.notifier := notifier;
      posts, isLoading, submitForm, filter := [], true, false, "all";
      stats, currentPage := DefaultStats, 1;
    }

    /** `fetchPosts` up to its `await`: the spinner is shown while the request is out. */
    method BeginFetch()
      modifies this
      ensures isLoading
      ensures posts == old(posts) && stats == old(stats) && currentPage == old(currentPage)
      ensures filter == old(filter) && submitForm == old(submitForm)
    {
      isLoading := true;
    }

    /**
     * `fetchPosts` after its `await`. A usable body replaces the posts (sorted newest first),
     * the counters and the page number; anything else keeps all three and raises one error
     * notification under the given id. Either way loading ends.
     */
    method CompleteFetch(reply: Reply<PostsBody>, id: string)
      modifies this, notifier
      ensures !isLoading
      ensures filter == old(filter) && submitForm == old(submitForm)
      ensures CheckedBody(reply).Some? ==>
                var body := CheckedBody(reply).value;
                && posts == SortNewestFirst(ArrayOrEmpty(body.posts))
                && stats == body.stats.GetOr(DefaultStats)
                && currentPage == 1
                && notifier.state == old(notifier.state)
      ensures CheckedBody(reply).None? ==>
                && posts == old(posts) && stats == old(stats) && currentPage == old(currentPage)
                && notifier.state.notifications
                   == old(notifier.state.notifications) + [WithId(LoadErrorDraft, id)]
    {
      match CheckedBody(reply) {
        case Some(data) =>
          posts := SortNewestFirst(ArrayOrEmpty(data.posts));
          stats := data.stats.GetOr(DefaultStats);
          currentPage := 1;
        case None =>
          notifier.AddNotification(LoadErrorDraft, id);
      }
      isLoading := false;
    }

    /**
     * One whole `fetchPosts` run. The effect runs it on mount and whenever `filter` or the
     * provider's `addNotification` changes, and the interval runs it every 10 seconds.
     */
    method FetchPosts(reply: Reply<PostsBody>, id: string)
      modifies this, notifier
      ensures !isLoading
      ensures filter == old(filter) && submitForm == old(submitForm)
      ensures CheckedBody(reply).Some? ==>
                var body := CheckedBody(reply).value;
                && posts == SortNewestFirst(ArrayOrEmpty(body.posts))
                && NewestFirst(posts)
                && multiset(posts) == multiset(ArrayOrEmpty(body.posts))
                && stats == body.stats.GetOr(DefaultStats)
                && currentPage == 1
                && notifier.state == old(notifier.state)
      ensures CheckedBody(reply).None? ==>
                && posts == old(posts) && stats == old(stats) && currentPage == old(currentPage)
                && notifier.state.notifications
                   == old(notifier.state.notifications) + [WithId(LoadErrorDraft, id)]
    {
      BeginFetch();
      CompleteFetch(reply, id);
    }

    /**
     * `fetchPosts` with the page reset its comment asks for: a successful run for the
     * current filter goes back to page 1, while an interval refresh keeps the reader's
     * page. Posts, counters, notifications and loading are as in `FetchPosts`.
     */
    method FetchPostsIntended(reply: Reply<PostsBody>, id: string, cause: FetchCause)
      modifies this, notifier
      ensures !isLoading
      ensures filter == old(filter) && submitForm == old(submitForm)
      ensures CheckedBody(reply).Some? ==>
                var body := CheckedBody(reply).value;
                && posts == SortNewestFirst(ArrayOrEmpty(body.posts))
                && stats == body.stats.GetOr(DefaultStats)
                && (cause == FilterRun ==> currentPage == 1)
                && (cause == IntervalRun ==> currentPage == old(currentPage))
                && notifier.state == old(notifier.state)
      ensures CheckedBody(reply).None? ==>
                && posts == old(posts) && stats == old(stats) && currentPage == old(currentPage)
                && notifier.state.notifications
                   == old(notifier.state.notifications) + [WithId(LoadErrorDraft, id)]
    {
      var page := currentPage;
      FetchPosts(reply, id);
      if cause == IntervalRun {
        currentPage := page;
      }
    }

    /** `handleContentSubmitted`: close the form and confirm the submission. */
    method HandleContentSubmitted(id: string)
      modifies this, notifier
      ensures !submitForm
      ensures posts == old(posts) && stats == old(stats) && currentPage == old(currentPage)
      ensures isLoading == old(isLoading) && filter == old(filter)
      ensures notifier.state.notifications
              == old(notifier.state.notifications) + [WithId(SubmittedDraft, id)]
    {
      submitForm := false;
      notifier.AddNotification(SubmittedDraft, id);
    }

    /** The header button: `setSubmitForm(!submitForm)`. */
    method ToggleSubmitForm()
      modifies this
      ensures submitForm == !old(submitForm)
      ensures posts == old(posts) && stats == old(stats) && currentPage == old(currentPage)
      ensures isLoading == old(isLoading) && filter == old(filter)
    {
      submitForm := !submitForm;
    }

    /** The form's `onCancel`: `setSubmitForm(false)`, with no notification. */
    method CancelSubmission()
      modifies this
      ensures !submitForm
      ensures posts == old(posts) && stats == old(stats) && currentPage == old(currentPage)
      ensures isLoading == old(isLoading) && filter == old(filter)
    {
      submitForm := false;
    }

    /** The filter control's `setFilter`; the next fetch uses the new filter. */
    method SetFilter(f: string)
      modifies this
      ensures filter == f
      ensures posts == old(posts) && stats == old(stats) && currentPage == old(currentPage)
      ensures isLoading == old(isLoading) && submitForm == old(submitForm)
    {
      filter := f;
    }

    /** The pagination control's `onPageChange`: the page is taken as given, not clamped. */
    method ChangePage(page: int)
      modifies this
      ensures currentPage == page
      ensures posts == old(posts) && stats == old(stats) && filter == old(filter)
      ensures isLoading == old(isLoading) && submitForm == old(submitForm)
    {
      currentPage := page;
    }

    /** Below the header: the spinner while loading, otherwise the current page and maybe the pager. */
    function View(): (v: PostsView)
      reads this
      ensures v.Spinner? <==> isLoading
      ensures v.Listing? ==> (v.pagination <==> |posts| > PostsPerPage)
      ensures v.Listing? ==> v.shown == CurrentPosts(posts, currentPage)
      ensures v.Listing? && currentPage >= 1 ==> |v.shown| <= PostsPerPage
    {
      if isLoading then Spinner
      else Listing(CurrentPosts(posts, currentPage), ShowsPagination(posts))
    }
  }

  // ---------------------------------------------------------------- page after a refresh

  /**
   * As written: a reader who has moved to page p (other than 1) is sent back to page 1 by
   * the next successful 10-second refresh, although the filter did not change.
   */
  method RefreshLeavesThePage(reply: Reply<PostsBody>, p: int) returns (before: int, after: int)
    requires CheckedBody(reply).Some? && p != 1
    ensures before == p && after == 1 && after != before
  {
    var notifier := new NotificationProvider();
    var page := new PostsPage(notifier);
    page.ChangePage(p);
    before := page.currentPage;
    page.FetchPosts(reply, "refresh");
    after := page.currentPage;
  }

  /**
   * The intended rule: whatever the refresh brings back, the reader stays on page p; a
   * successful fetch for a new filter then starts again from page 1.
   */
  method RefreshKeepsThePage(refresh: Reply<PostsBody>, f: string, filtered: Reply<PostsBody>, p: int)
    returns (before: int, afterRefresh: int, afterFilter: int)
    ensures before == p && afterRefresh == p
    ensures CheckedBody(filtered).Some? ==> afterFilter == 1
    ensures CheckedBody(filtered).None? ==> afterFilter == p
  {
    var notifier := new NotificationProvider();
    var page := new PostsPage(notifier);
    page.ChangePage(p);
    before := page.currentPage;
    page.FetchPostsIntended(refresh, "refresh", IntervalRun);
    afterRefresh := page.currentPage;
    page.SetFilter(f);
    page.FetchPostsIntended(filtered, "filter", FilterRun);
    afterFilter := page.currentPage;
  }
}

=== FILE: records.dfy ===
/**
 * The records the backend sends and every page reads: moderated posts, the aggregate
 * counters, and the body of `GET /api/posts`.
 */
module Records {
  import opened Wrappers

  /**
   * A moderated item. Timestamps (`createdAt`, `completedAt`) are milliseconds since the
   * epoch, as `new Date(...).getTime()` yields them; `processingTime` is the optional
   * field the analytics page sums.
   */
  datatype Post = Post(
    id: string,
    title: string,
    content: string,
    author: string,
    status: string,
    server: string,
    worker: Option<string>,
    moderationDetails: Option<string>,
    createdAt: int,
    completedAt: Option<int>,
    processingTime: Option<int>)

  /** The aggregate counters; `processing` and `needs_review` may be missing from a body. */
  datatype Stats = Stats(
    total: int,
    approved: int,
    rejected: int,
    pending: int,
    processing: Option<int>,
    needsReview: Option<int>)

  /**
   * The `posts` field of a body as the pages test it: an array, a falsy value
   * (missing, null, ...), or some other truthy value that is not an array.
   */
  datatype PostsField = PostArray(items: seq<Post>) | Missing | NotArray

  /** The body of `GET /api/posts`; `stats` is `None` when the field is missing or null. */
  datatype PostsBody = PostsBody(posts: PostsField, stats: Option<Stats>)

  /** `Array.isArray(data.posts) ? data.posts : []` */
  function ArrayOrEmpty(f: PostsField): (r: seq<Post>)
    ensures f.PostArray? ==> r == f.items
    ensures !f.PostArray? ==> r == []
  {
    if f.PostArray? then f.items else []
  }

  /** How many posts satisfy `keep`: `posts.filter(keep).length`. */
  function CountWhere(posts: seq<Post>, keep: Post -> bool): (r: nat)
    ensures r <= |posts|
    ensures r == |posts| <==> forall i :: 0 <= i < |posts| ==> keep(posts[i])
    ensures r == 0 <==> forall i :: 0 <= i < |posts| ==> !keep(posts[i])
  {
    if posts == [] then 0
    else
      var rest := CountWhere(posts[1..], keep);
      assert forall i :: 1 <= i < |posts| ==> posts[i] == posts[1..][i - 1];
      (if keep(posts[0]) then 1 else 0) + rest
  }

  /** Counting over two lists laid end to end adds the counts. */
  lemma {:induction false} CountWhereAppend(a: seq<Post>, b: seq<Post>, keep: Post -> bool)
    ensures CountWhere(a + b, keep) == CountWhere(a, keep) + CountWhere(b, keep)
  {
    if a == [] {
      assert a + b == b;
    } else {
      assert (a + b)[1..] == a[1..] + b;
      CountWhereAppend(a[1..], b, keep);
    }
  }
}

=== FILE: rounding.dfy ===
/**
 * `Math.round(part / total * 100)`, the percentage every panel of the dashboard displays,
 * in exact rational arithmetic. `Math.round` rounds halves up, so the result is
 * floor(100 * part / total + 1/2) = (200 * part + total) div (2 * total).
 */
module Rounding {

  /** The integer nearest to 100 * part / total, halves rounded up (total > 0). */
  function RoundPercent(part: int, total: int): (r: int)
    requires total > 0
    ensures 2 * total * r <= 200 * part + total < 2 * total * (r + 1)
  {
    var q := (200 * part + total) / (2 * total);
    assert 200 * part + total == 2 * total * q + (200 * part + total) % (2 * total);
    q
  }

  /** The rounding bracket above pins the result down: no other integer satisfies it. */
  lemma {:induction false} RoundPercentUnique(part: int, total: int, r: int)
    requires total > 0
    requires 2 * total * r <= 200 * part + total < 2 * total * (r + 1)
    ensures r == RoundPercent(part, total)
  {
    var q := RoundPercent(part, total);
    if r < q {
      MulMonotone(2 * total, r + 1, q);
    } else if q < r {
      MulMonotone(2 * total, q + 1, r);
    }
  }

  /** A share of a whole is a percentage between 0 and 100. */
  lemma {:induction false} RoundPercentInRange(part: int, total: int)
    requires 0 <= part <= total && total > 0
    ensures 0 <= RoundPercent(part, total) <= 100
  {
    var r := RoundPercent(part, total);
    if r < 0 {
      MulMonotone(2 * total, r + 1, 0);
    }
    if r > 100 {
      MulMonotone(2 * total, 101, r);
    }
  }

  /** A larger share never rounds to a smaller percentage. */
  lemma {:induction false} RoundPercentMonotone(part1: int, part2: int, total: int)
    requires total > 0 && part1 <= part2
    ensures RoundPercent(part1, total) <= RoundPercent(part2, total)
  {
    var r1, r2 := RoundPercent(part1, total), RoundPercent(part2, total);
    if r2 < r1 {
      MulMonotone(2 * total, r2 + 1, r1);
    }
  }

  /** The whole is 100 percent and nothing is 0 percent. */
  lemma RoundPercentEnds(total: int)
    requires total > 0
    ensures RoundPercent(0, total) == 0 && RoundPercent(total, total) == 100
  {
    RoundPercentUnique(0, total, 0);
    RoundPercentUnique(total, total, 100);
  }

  lemma {:induction false} MulMonotone(k: int, a: int, b: int)
    requires k > 0 && a <= b
    ensures k * a <= k * b
  {
    assert k * b - k * a == k * (b - a);
  }

  /** A JavaScript number as a division by a possibly zero count can leave it. */
  datatype JsNumber = Finite(n: int) | NaN | Infinity

  /**
   * `Math.round(part / total * 100)` with no guard against an empty whole: 0 / 0 is NaN and
   * a positive count over 0 is Infinity, and `Math.round` leaves both as they are.
   */
  function JsPercent(part: nat, total: nat): (r: JsNumber)
    ensures total > 0 ==> r.Finite? && 0 <= r.n == RoundPercent(part, total)
    ensures total == 0 ==> (r == NaN <==> part == 0) && (r == Infinity <==> part > 0)
  {
    if total > 0 then
      RoundPercentMonotone(0, part, total);
      RoundPercentEnds(total);
      Finite(RoundPercent(part, total))
    else if part == 0 then NaN
    else Infinity
  }

  /** JavaScript's `x > k` for a number x: false for NaN, true for Infinity. */
  function GreaterThan(x: JsNumber, k: int): (b: bool)
    ensures x.NaN? ==> !b
    ensures x.Infinity? ==> b
    ensures x.Finite? ==> (b <==> x.n > k)
  {
    match x
    case Finite(n) => n > k
    case NaN => false
    case Infinity => true
  }
}

=== FILE: server_status.dfy ===
/** The System Status panel: which backend servers count as online, and how many. */
module ServerStatus {
  import opened Rounding

  /** A value in the status body: a legacy boolean or a status string. */
  datatype StatusValue = Flag(b: bool) | Word(s: string)

  /** One `[server, statusValue]` pair of `Object.entries(status)`, in key order. */
  datatype ServerEntry = ServerEntry(name: string, value: StatusValue)

  /**
   * `isOnline`: a boolean counts as itself, a string counts only when it is 'busy' or
   * 'idle' ('online' itself does not).
   */
  function IsOnline(v: StatusValue): (b: bool)
    ensures b <==> v == Flag(true) || v == Word("busy") || v == Word("idle")
    ensures v == Word("online") ==> !b
  {
    match v
    case Flag(b) => b
    case Word(s) => s == "busy" || s == "idle"
  }

  /** `Object.keys(status).length` */
  function TotalServers(entries: seq<ServerEntry>): (r: nat)
    ensures r == 0 <==> entries == []
    ensures r == |entries|
  {
    |entries|
  }

  /** `Object.values(status).filter(isOnline).length` */
  function OnlineServers(entries: seq<ServerEntry>): (r: nat)
    ensures r <= TotalServers(entries)
    ensures r == TotalServers(entries) <==> forall i :: 0 <= i < |entries| ==> IsOnline(entries[i].value)
    ensures r == 0 <==> forall i :: 0 <= i < |entries| ==> !IsOnline(entries[i].value)
  {
    if entries == [] then 0
    else
      var rest := OnlineServers(entries[1..]);
      assert forall i :: 1 <= i < |entries| ==> entries[i] == entries[1..][i - 1];
      (if IsOnline(entries[0].value) then 1 else 0) + rest
  }

  /** Counting the online servers of two lists laid end to end adds the counts. */
  lemma {:induction false} OnlineServersAppend(a: seq<ServerEntry>, b: seq<ServerEntry>)
    ensures OnlineServers(a + b) == OnlineServers(a) + OnlineServers(b)
  {
    if a == [] {
      assert a + b == b;
    } else {
      assert (a + b)[1..] == a[1..] + b;
      OnlineServersAppend(a[1..], b);
    }
  }

  /** `totalServers ? Math.round(onlineServers / totalServers * 100) : 0` */
  function OnlinePercentage(entries: seq<ServerEntry>): (r: int)
    ensures 0 <= r <= 100
    ensures |entries| == 0 ==> r == 0
    ensures |entries| > 0 ==> (r == 100 <== OnlineServers(entries) == |entries|)
    ensures |entries| > 0 ==> (r == 0 <== OnlineServers(entries) == 0)
    ensures |entries| > 0 ==> r == RoundPercent(OnlineServers(entries), |entries|)
  {
    if TotalServers(entries) > 0 then
      RoundPercentInRange(OnlineServers(entries), TotalServers(entries));
      RoundPercentEnds(TotalServers(entries));
      RoundPercent(OnlineServers(entries), TotalServers(entries))
    else 0
  }

  /** The text beside a server: 'Online'/'Offline' for a boolean, the raw string otherwise. */
  function Label(v: StatusValue): (s: string)
    ensures v.Flag? ==> (s == "Online" <==> v.b) && (s == "Offline" <==> !v.b)
    ensures v.Word? ==> s == v.s
  {
    match v
    case Flag(b) => if b then "Online" else "Offline"
    case Word(s) => s
  }

  datatype ServerRow = ServerRow(name: string, online: bool, text: string)

  /** One row per server, in key order. */
  function Rows(entries: seq<ServerEntry>): (rows: seq<ServerRow>)
    ensures |rows| == |entries|
    ensures forall i :: 0 <= i < |entries| ==>
              rows[i].name == entries[i].name && rows[i].online == IsOnline(entries[i].value)
    ensures forall i :: 0 <= i < |entries| && entries[i].value.Word? ==> rows[i].text == entries[i].value.s
    ensures forall i :: 0 <= i < |entries| && entries[i].value.Flag? ==>
              rows[i].text == (if entries[i].value.b then "Online" else "Offline")
  {
    seq(|entries|, i requires 0 <= i < |entries| =>
      ServerRow(entries[i].name, IsOnline(entries[i].value), Label(entries[i].value)))
  }

  /** For a boolean status the text and the dot agree: 'Online' exactly on the rows marked online. */
  lemma BooleanLabelMatchesDot(entries: seq<ServerEntry>, i: int)
    requires 0 <= i < |entries| && entries[i].value.Flag?
    ensures Rows(entries)[i].text == "Online" <==> Rows(entries)[i].online
    ensures Rows(entries)[i].text == "Offline" <==> !Rows(entries)[i].online
  {
  }

  /** The rows marked online are exactly as many as the online count in the header. */
  lemma {:induction false} RowsAgreeWithCount(entries: seq<ServerEntry>)
    ensures |set i | 0 <= i < |entries| && Rows(entries)[i].online| == OnlineServers(entries)
  {
    OnlineIndexCount(entries);
    var rows := Rows(entries);
    assert (set i | 0 <= i < |entries| && rows[i].online)
        == (set i | 0 <= i < |entries| && IsOnline(entries[i].value));
  }

  lemma {:induction false} OnlineIndexCount(entries: seq<ServerEntry>)
    ensures |set i | 0 <= i < |entries| && IsOnline(entries[i].value)| == OnlineServers(entries)
  {
    if entries != [] {
      var n := |entries| - 1;
      var front := entries[..n];
      OnlineIndexCount(front);
      OnlineServersAppend(front, [entries[n]]);
      assert front + [entries[n]] == entries;
      var all := set i | 0 <= i < |entries| && IsOnline(entries[i].value);
      var before := set i | 0 <= i < n && IsOnline(front[i].value);
      if IsOnline(entries[n].value) {
        assert all == before + {n};
      } else {
        assert all == before;
      }
    }
  }

  /** 'online' and 'offline' strings both count as not online. */
  lemma OnlineWordIsNotOnline()
    ensures !IsOnline(Word("online")) && !IsOnline(Word("offline"))
    ensures IsOnline(Word("busy")) && IsOnline(Word("idle"))
  {
  }

  /** A busy and an offline server give 1 of 2 online, shown as 50%. */
  lemma ExampleBusyAndOffline()
    ensures var e := [ServerEntry("serverA", Word("busy")), ServerEntry("serverB", Word("offline"))];
            OnlineServers(e) == 1 && TotalServers(e) == 2 && OnlinePercentage(e) == 50
  {
    var e := [ServerEntry("serverA", Word("busy")), ServerEntry("serverB", Word("offline"))];
    assert e[1..] == [ServerEntry("serverB", Word("offline"))];
    assert OnlineServers(e) == 1;
    RoundPercentUnique(1, 2, 50);
  }
}

=== FILE: stats_overview.dfy ===
/** The four counter cards at the top of the dashboard. */
module StatsOverview {
  import opened Wrappers
  import opened Records
  import opened Rounding

  /** `stats.total > 0 ? Math.round(stats.approved / stats.total * 100) : 0` */
  function ApprovalRate(stats: Stats): (r: int)
    ensures stats.total <= 0 ==> r == 0
    ensures stats.total > 0 ==>
              2 * stats.total * r <= 200 * stats.approved + stats.total < 2 * stats.total * (r + 1)
    ensures 0 <= stats.approved <= stats.total ==> 0 <= r <= 100
  {
    if stats.total > 0 then
      RoundPercentInRange(if 0 <= stats.approved <= stats.total then stats.approved else 0, stats.total);
      RoundPercent(stats.approved, stats.total)
    else 0
  }

  /** `stats.total > 0 ? Math.round(stats.rejected / stats.total * 100) : 0` */
  function RejectionRate(stats: Stats): (r: int)
    ensures stats.total <= 0 ==> r == 0
    ensures stats.total > 0 ==>
              2 * stats.total * r <= 200 * stats.rejected + stats.total < 2 * stats.total * (r + 1)
    ensures 0 <= stats.rejected <= stats.total ==> 0 <= r <= 100
  {
    if stats.total > 0 then
      RoundPercentInRange(if 0 <= stats.rejected <= stats.total then stats.rejected else 0, stats.total);
      RoundPercent(stats.rejected, stats.total)
    else 0
  }

  /** The Pending Review card: `stats.pending + (stats.processing || 0)`. */
  function PendingReview(stats: Stats): (r: int)
    ensures stats.processing.None? ==> r == stats.pending
    ensures stats.processing.Some? ==> r == stats.pending + stats.processing.value
  {
    stats.pending + stats.processing.GetOr(0)
  }

  datatype Color = Blue | Green | Red | Amber

  /** One card: a title, the number it shows and, on some cards, a rate bar. */
  datatype Card = Card(title: string, value: int, color: Color, percentage: Option<int>)

  /** The cards in display order. */
  function Cards(stats: Stats): (cs: seq<Card>)
    ensures |cs| == 4
    ensures cs[0] == Card("Total Content", stats.total, Blue, None)
    ensures cs[1] == Card("Approved", stats.approved, Green, Some(ApprovalRate(stats)))
    ensures cs[2] == Card("Rejected", stats.rejected, Red, Some(RejectionRate(stats)))
    ensures cs[3] == Card("Pending Review", PendingReview(stats), Amber, None)
  {
    [ Card("Total Content", stats.total, Blue, None),
      Card("Approved", stats.approved, Green, Some(ApprovalRate(stats))),
      Card("Rejected", stats.rejected, Red, Some(RejectionRate(stats))),
      Card("Pending Review", PendingReview(stats), Amber, None) ]
  }

  /**
   * Only the Approved and Rejected cards carry a rate, and every rate shown is a true
   * percentage when the counters are consistent with the total.
   */
  lemma {:induction false} CardRates(stats: Stats)
    requires 0 <= stats.approved <= stats.total && 0 <= stats.rejected <= stats.total
    ensures forall c :: c in Cards(stats) ==>
              (c.percentage.Some? <==> c.title == "Approved" || c.title == "Rejected")
    ensures forall c :: c in Cards(stats) && c.percentage.Some? ==> 0 <= c.percentage.value <= 100
  {
    var cs := Cards(stats);
    assert cs == [cs[0], cs[1], cs[2], cs[3]];
  }

  /** The total card shows the backend's total as given, whatever the other counters add up to. */
  lemma TotalIsNotRecomputed(stats: Stats, other: Stats)
    requires stats.total == other.total
    ensures Cards(stats)[0].value == Cards(other)[0].value == stats.total
  {
  }

  /** 70 approved and 20 rejected out of 100 are shown as 70% and 20%. */
  lemma ExampleRates()
    ensures var s := Stats(100, 70, 20, 10, None, None);
            ApprovalRate(s) == 70 && RejectionRate(s) == 20 && PendingReview(s) == 10
  {
    RoundPercentUnique(70, 100, 70);
    RoundPercentUnique(20, 100, 20);
  }
}

=== FILE: text.dfy ===
/** Template-literal rendering of integers: `${n}` for the integers the pages display. */
module Text {

  function DigitChar(d: nat): (c: char)
    requires d < 10
    ensures '0' <= c <= '9'
    ensures c as int - '0' as int == d
  {
    ('0' as int + d) as char
  }

  /** The decimal digits of n, most significant first, without leading zeros. */
  function NatToString(n: nat): (s: string)
    ensures 1 <= |s|
    ensures forall i :: 0 <= i < |s| ==> '0' <= s[i] <= '9'
    ensures s[0] == '0' ==> n == 0
  {
    if n < 10 then [DigitChar(n)] else NatToString(n / 10) + [DigitChar(n % 10)]
  }

  /** The number a string of decimal digits stands for, read most significant digit first. */
  function DecimalValue(s: string): nat
    requires forall i :: 0 <= i < |s| ==> '0' <= s[i] <= '9'
  {
    if s == [] then 0
    else DecimalValue(s[..|s| - 1]) * 10 + (s[|s| - 1] as int - '0' as int)
  }

  /** Reading the rendered digits back gives the number that was rendered. */
  lemma {:induction false} NatToStringRoundTrip(n: nat)
    ensures DecimalValue(NatToString(n)) == n
  {
    var s := NatToString(n);
    if n >= 10 {
      NatToStringRoundTrip(n / 10);
      assert s[..|s| - 1] == NatToString(n / 10);
    }
  }

  /** `${i}`: a minus sign before the digits of a negative integer. */
  function IntToString(i: int): (s: string)
    ensures 1 <= |s| && (i < 0 <==> s[0] == '-')
    ensures i >= 0 ==> s == NatToString(i)
    ensures i < 0 ==> s[1..] == NatToString(-i)
  {
    if i < 0 then "-" + NatToString(-i) else NatToString(i)
  }

  /** The rendered integer can be read back: its sign from the first character, its size from the digits. */
  lemma IntToStringRoundTrip(i: int)
    ensures i >= 0 ==> DecimalValue(IntToString(i)) == i
    ensures i < 0 ==> DecimalValue(IntToString(i)[1..]) == -i
  {
    if i >= 0 {
      NatToStringRoundTrip(i);
    } else {
      NatToStringRoundTrip(-i);
    }
  }
}

=== FILE: wrappers.dfy ===
/** The optional values the dashboard passes around (`T | undefined`, `T | null`). */
module Wrappers {

  datatype Option<+T> = None | Some(value: T) {

    /** `x || fallback` / `x ?? fallback` for a present-or-absent value. */
    function GetOr(fallback: T): T {
      match this
      case Some(v) => v
      case None => fallback
    }
  }
}
